=== FILE: README.md ===
# DevCamper bootcamp API: list-query pipeline, bootcamp handlers and schema

This project models, in Dafny, the core of the DevCamper bootcamp API:

- the list-query middleware `advancedResults(model, populate)`. It takes the request's query parameters and:
  - removes the control keys `select`, `sort`, `page` and `limit`;
  - serialises the rest with `JSON.stringify`;
  - puts `$` before every whole-word `gt`, `gte`, `lt`, `lte` or `in`;
  - turns the comma lists of `select` and `sort` into space lists, with `-createdAt` as the default sort;
  - reads `page` and `limit` with `parseInt(…, 10) || default`;
  - skips and limits the store's answer;
  - builds the `{ success, count, pagination, data }` body, with `next` and `prev` computed from the size of the whole collection.
- `getBootcamps`, the handler that repeats the same pipeline inline with `courses` always populated. On every query and every store it is proved to give the same failure or the same body as the middleware. Where a failure goes differs (see Modelling choices).
- the single-record handlers `getBootcamp`, `createBootcamp`, `updateBootcamp` and `deleteBootcamp`, over a store that maps document ids to bootcamps. This includes their 404 branches.
- the Bootcamp schema:
  - its validators, as a `Valid` predicate and as `Validate`, which lists the errors with their messages;
  - the `trim` setter on `name`;
  - the schema defaults, as `ApplyDefaults`.

## Modules

| module | file | contents |
|---|---|---|
| `Outcomes` | outcomes.dfy | `Option` and `Result` |
| `JsText` | jstext.dfy | JavaScript string operations: word characters, white space, `trim`, `split`/`join`, `parseInt` |
| `QueryParams` | query_params.dfy | the parsed query object (strings, arrays, nested objects), property lookup, `delete`, `String(v)`, `JSON.stringify` |
| `OperatorRewrite` | operator_rewrite.dfy | `replace(/\b(gt\|gte\|lt\|lte\|in)\b/g, …)` as a left-to-right scan, a word-by-word reference, and its inverse |
| `AdvancedResults` | advanced_results.dfy | the middleware pipeline |
| `BootcampModel` | bootcamp_model.dfy | the bootcamp document, its validators, setters and defaults |
| `BootcampsController` | bootcamps_controller.dfy | `getBootcamps` and the single-record handlers |

## Modelling choices

- **Query object.** The query object is an ordered list of fields, because `JSON.stringify` follows property order. A value is a string, an array (`?a=1&a=2`) or a nested object (`?price[gte]=100`), as the query-string parser produces.
- **Truthiness and `.split`.**
  - A missing parameter or the empty string is falsy.
  - Any array or object is truthy. It has no `split`, so a `select` or `sort` given as an array or object makes the handler throw a `TypeError`. This is modelled as the `NotSplittable` failure.
  - Where that failure goes differs between the two copies. In `getBootcamps`, `asyncHandler` hands it to the error middleware. The middleware `advancedResults` is not wrapped, so there it is an unhandled promise rejection, which closes the server (server.js:57-61).
- **`String(v)`.** `parseInt(v, 10)` first converts `v` with `String(v)`.
  - An absent parameter reads as `"undefined"`, an array as its elements joined with commas, and an object as `"[object Object]"`.
  - Express's query parser keeps keys such as `toString`: `?page[toString]=1` makes `page` the object `{ toString: "1" }`. Its own `toString` is a string, not a function, so `String(v)` throws a `TypeError` ("Cannot convert object to primitive value"). The same happens for an array holding such an object at any depth, since `join` converts every element. This is modelled as the `NotConvertible` failure of `page` or `limit`, which comes after the `select` and `sort` failures, as in the code. It travels like `NotSplittable`.
- **`parseInt`.** After `String(v)`, `parseInt` skips ECMAScript white space, reads an optional sign, and takes the longest decimal-digit prefix. When there are no digits the result is `NaN`, which is `None` here. `|| default` replaces both `NaN` and 0.
- **The store.** The store is abstract.
  - `find` gives the store's answer to a filter text, projection, sort order and populate path, before skip and limit.
  - `collection` is the whole collection; `countDocuments()` is called without the filter, so its length is `total`.
  - Skip and limit follow MongoDB: a negative skip is refused (`NegativeSkip`), a limit of 0 means no limit, and a negative limit counts by its magnitude. A negative skip happens, for example, with `page=-1` and the default limit.
- **Single-record handlers.** The store is a map from ids to documents. `Consistent` states what the schema and the unique index on `name` keep true: every document is valid, and no two documents share a name.
  - **Create** applies the setters and defaults, then the validators, then the unique indexes on `_id` and `name`. The new id is a parameter.
  - **Update** (`runValidators: true`) casts the update through the setters, then checks the rules of the paths the update sets. Mongoose runs these update validators before the query reaches the store, so an invalid update of an unknown id fails validation rather than with 404. Then come the lookup, the unique name and the merge. No defaults are applied on update.
- **Schema details.**
  - `required` on a string rejects a missing value and the empty string. On the array `careers` it rejects only a missing value; the empty list passes.
  - `careers` gets Mongoose's implicit default for arrays, the empty list, when a document is built, so a create without `careers` passes. An update that leaves `careers` unset does not check it.
  - The `enum` of `careers` is checked element by element. Each element outside it gives its own error, at the path `careers.<i>`, in index order.
  - `maxlength` applies only to a set value.
  - `jobAssistance` declares `defaul: false`, which Mongoose ignores, so it has no default.
  - `createdAt` defaults to `new Date()`, which is evaluated once when the schema is defined. Every document built without `createdAt` therefore gets the same instant. That instant is the `schemaLoadTime` parameter.
  - The location's `State` field keeps the schema's capital letter in the path; the model calls it `state`.

### Behaviour worth knowing

- The operator rewrite runs over the whole JSON text. It rewrites matching words in keys and in string values alike: `?tag=in` becomes `{"tag":"$in"}`.
- A negative parsed `page` or `limit` passes through; only `NaN` and 0 give the default.
- `total` is the size of the whole collection, whatever the filter selects.
- `select` and `sort` take effect only when they are truthy: `?sort=` gives the default sort.
- `getBootcamps` sends `success: true`; `getBootcampsInRadius` sends the misspelt flag `succes`. `getBootcamps` and the shared middleware give the same failure or the same body; where a failure goes differs (see Modelling choices).

## Model

| member | source | states |
|---|---|---|
| QueryParams.Lookup | middlewares/advancedResults.js:21-34 | `query[key]` is defined exactly when some field has that key, and its value is that field's value |
| QueryParams.KeepUnlisted | middlewares/advancedResults.js:2-9 | a field is kept exactly when its key is not listed: every kept field is an unlisted field of the query, and every unlisted field is kept; with no listed key present, the query is returned whole |
| QueryParams.KeepUnlistedInOrder | middlewares/advancedResults.js:2-9 | the kept fields keep the query's order: keeping distributes over concatenation and keeps a single field exactly when its key is unlisted, which fixes the result on every query |
| QueryParams.DeleteEachKeepsUnlisted | middlewares/advancedResults.js:6-9 | deleting the listed keys one after another, as the `forEach` does, leaves exactly the fields with unlisted keys, in their original order |
| QueryParams.RemoveControlKeys | middlewares/advancedResults.js:2-9 | after the removal, `select`, `sort`, `page` and `limit` are undefined and every other key has its original value; distinct keys stay distinct |
| QueryParams.RemoveControlKeysIdempotent | middlewares/advancedResults.js:2-9 | removing the control keys a second time removes nothing more |
| QueryParams.EscapePlain | middlewares/advancedResults.js:12 | `JSON.stringify` writes a string without quotes, backslashes or control characters unchanged |
| QueryParams.StringifyMapStrings | middlewares/advancedResults.js:12 | serialising a query whose strings were mapped is serialising the original with the map folded into the string encoder |
| QueryParams.StringifyPlainAlike | middlewares/advancedResults.js:12 | two string encoders that agree on plain strings serialise a plain query identically |
| QueryParams.JsStringSpec | middlewares/advancedResults.js:33-34 | `String()` of an absent parameter is `undefined`; it throws exactly for an object with its own `toString` key or an array holding one; an array of strings gives them joined with commas |
| JsText.SplitSpec | middlewares/advancedResults.js:22 | no part of `split(",")` contains the separator, and joining the parts with it gives the input back |
| JsText.SplitUnique | middlewares/advancedResults.js:22 | any list of separator-free parts that joins to the input is the result of `split` |
| JsText.SplitJoinReplaces | middlewares/advancedResults.js:22 | `split(a).join(b)` replaces every `a` by `b` and changes nothing else |
| JsText.TrimCharacterised | models/Bootcamp.js:8 | the trimmed name is an infix of the input with no white space at either end, everything removed is white space, and it is empty exactly when the input is all white space |
| JsText.TrimIdempotent | models/Bootcamp.js:8 | trimming twice is trimming once |
| JsText.TrimStartSpec | middlewares/advancedResults.js:33-34 | the white space `parseInt` skips is all white space, and what is left starts with none |
| JsText.LeadingDigits | middlewares/advancedResults.js:33-34 | `parseInt` reads the longest run of decimal digits at the start |
| JsText.ParseIntShowInt | middlewares/advancedResults.js:33-34 | `parseInt` of a decimal numeral, after any white space and before any non-digit text, is that number |
| JsText.ParseIntNaN | middlewares/advancedResults.js:33-34 | `parseInt` is `NaN` exactly when no digit follows the white space and the optional sign |
| OperatorRewrite.MatchFromSpec | middlewares/advancedResults.js:13 | the alternation matches an operator that is a prefix followed by a word boundary, and fails only when no later alternative could |
| OperatorRewrite.IsOperatorIsAlternative | middlewares/advancedResults.js:13 | the character test for an operator word accepts exactly the five alternatives of the expression |
| OperatorRewrite.MatchAtWord | middlewares/advancedResults.js:13 | at a word boundary the expression matches exactly when the whole word there is an operator, and matches that word |
| OperatorRewrite.ScanAtWord | middlewares/advancedResults.js:13 | at the start of a word the global replace emits the word, with `$` in front exactly when it is an operator, and resumes at the break after it |
| OperatorRewrite.RewriteIsWordwise | middlewares/advancedResults.js:12-15 | the regular-expression scan equals the word-by-word reference: each maximal word that is an operator gets `$`, every other character is copied |
| OperatorRewrite.RewriteWord | middlewares/advancedResults.js:13 | a whole word is rewritten exactly when it is `gt`, `gte`, `lt`, `lte` or `in`; `login` and `index` are left alone |
| OperatorRewrite.RewriteWholeWord | middlewares/advancedResults.js:13 | a word between non-word characters gets `$` exactly when it is an operator, and the text on either side is rewritten independently |
| OperatorRewrite.RewriteAtBreak | middlewares/advancedResults.js:13 | no match spans a place where the text is not inside a word |
| OperatorRewrite.RewriteAddsOneCharPerOperator | middlewares/advancedResults.js:12-15 | the words of the text are unchanged and in order, and the length grows by exactly the number of operator words |
| OperatorRewrite.RewriteUndone | middlewares/advancedResults.js:12-15 | removing each `$` that stands before a whole operator word gives the input back: the rewrite only inserts `$` |
| OperatorRewrite.RewriteStringify | middlewares/advancedResults.js:12-15 | the rewrite never touches the JSON structure; it acts on each encoded key and string value separately |
| OperatorRewrite.RewriteStringifyPlain | middlewares/advancedResults.js:12-15 | for plain keys and values, rewriting the JSON text is serialising the query with every key and string value rewritten |
| AdvancedResults.FilterTextPlain | middlewares/advancedResults.js:2-18 | for keys and values that need no JSON escaping, the store's filter is the query without control keys, with every key and every string value rewritten |
| AdvancedResults.FilterTextComparison | middlewares/advancedResults.js:2-18 | a one-field comparison `?field[op]=value`, with single non-operator words as field and value, reaches the store as `{"field":{"$op":"value"}}`; `price[gte]=100` gives `{"price":{"$gte":"100"}}` |
| AdvancedResults.CommasToSpaces | middlewares/advancedResults.js:22 | the list keeps its length, every comma becomes a space, nothing else changes, and no comma remains |
| AdvancedResults.SpaceList | middlewares/advancedResults.js:21-28 | a missing or empty parameter gives no list, an array or object fails, and a non-empty string gives its commas turned to spaces |
| AdvancedResults.SortOrder | middlewares/advancedResults.js:26-31 | the sort is `-createdAt` when `sort` is missing or empty, the space list of `sort` otherwise, and fails exactly for an array or object |
| AdvancedResults.IntParamOr | middlewares/advancedResults.js:33-34 | the reading fails exactly when `String(v)` throws; otherwise it is the default exactly when the parse is `NaN`, 0 or the default itself, else the parsed value; with a non-zero default it is never 0 |
| AdvancedResults.PageNumber | middlewares/advancedResults.js:33 | reading `page` fails, with `NotConvertible`, exactly when `page` is a value `String()` cannot convert; otherwise it is `parseInt(String(page), 10) \|\| 1`, so a missing `page` gives 1, and never 0 |
| AdvancedResults.PageLimit | middlewares/advancedResults.js:34 | reading `limit` fails, with `NotConvertible`, exactly when `limit` is a value `String()` cannot convert; otherwise it is `parseInt(String(limit), 10) \|\| 100`, so a missing `limit` gives 100, and never 0 |
| AdvancedResults.PageAndLimitDefaults | middlewares/advancedResults.js:33-34 | a missing `page` is 1, a missing `limit` is 100, and a page or limit that is read is never 0 |
| AdvancedResults.IntParamReadsNumber | middlewares/advancedResults.js:33-34 | a decimal numeral (negative ones included) with leading white space and trailing text reads as its number, unless it is 0 |
| AdvancedResults.Paginate | middlewares/advancedResults.js:47-60 | `next = {page+1, limit}` is present iff `endIndex < total`, `prev = {page-1, limit}` iff `startIndex > 0`, and nothing else is set |
| AdvancedResults.PaginateOrdinary | middlewares/advancedResults.js:47-60 | for a positive page and limit, `prev` exists iff the page is past the first, and `next` iff records remain after this page |
| AdvancedResults.Window | middlewares/advancedResults.js:39 | skip and limit fail exactly for a negative skip; otherwise they give consecutive records from `skip` on, as many as are left, bounded by a non-zero limit |
| AdvancedResults.PopulateIfSet | middlewares/advancedResults.js:41 | populate is applied exactly when the path is a non-empty string |
| AdvancedResults.Respond | middlewares/advancedResults.js:39-67 | the body reports success, counts exactly its records, and carries the pagination object; its records are the consecutive records of the store's answer from `startIndex` on, exactly as many as remain there, up to a non-zero `limit` |
| AdvancedResults.PagesTile | middlewares/advancedResults.js:35-44 | with a positive limit, pages 1 to n read in turn give the first n·limit records of the store's answer, each once and in order |
| AdvancedResults.Run | middlewares/advancedResults.js:1-70 | the middleware fails exactly when reading `select`, `sort`, `page` or `limit` fails or `startIndex` is negative; otherwise its body is the page of the store's answer |
| AdvancedResults.RunFails | middlewares/advancedResults.js:21-39 | the middleware fails exactly when `select` or `sort` is an array or object, `page` or `limit` is a value `String()` cannot convert, or `startIndex` is negative |
| AdvancedResults.RunResponse | middlewares/advancedResults.js:62-67 | a successful body has `success` true, `count` equal to the number of records, the `limit` records of the store's answer from `startIndex` on (fewer only where the answer runs out), and the pagination of the whole collection |
| AdvancedResults.PaginationIgnoresFilter | middlewares/advancedResults.js:37 | the pagination object depends on the query and the collection size only, never on what the filter selects |
| AdvancedResults.NextMeansMoreRecords | middlewares/advancedResults.js:47-60 | over an unfiltered collection, `next` is present exactly when the following page would hold a record |
| BootcampModel.PathErrors | models/Bootcamp.js:4-72 | a path other than `careers` has at most one error; a path has none exactly when its rules hold; every error names a rule the document breaks at that path (`Breaks`), which for a path other than `careers` is the only broken rule; every error whose rule has a message in the schema carries that message |
| BootcampModel.CareersErrors | models/Bootcamp.js:56-67 | a missing `careers` gives the single `required` error; otherwise there is one enum error for each element outside the six values, at `careers.<i>` with that path in its message, in index order, and none for the others |
| BootcampModel.ElementErrorsSpec | models/Bootcamp.js:59-66 | the element errors are exactly the enum errors of the elements outside the enum, by increasing index |
| BootcampModel.ErrorsFor | models/Bootcamp.js:3-83 | there is an error for a path exactly when the path is listed and its rules fail, and every error names a rule the document breaks |
| BootcampModel.Validate | models/Bootcamp.js:3-83 | a document has an error for a path exactly when that path's rules fail, and no errors exactly when it is valid; every error names a rule the document breaks |
| BootcampModel.Cast | models/Bootcamp.js:8 | the setters trim `name` and change nothing else |
| BootcampModel.CastName | models/Bootcamp.js:4-10 | a built name is valid exactly when its trimmed form is non-empty and at most 50 characters |
| BootcampModel.CastIdempotent | models/Bootcamp.js:8 | applying the setters twice is applying them once |
| BootcampModel.ApplyDefaults | models/Bootcamp.js:56-82 | unset `photo`, `housing`, `jobGuarantee`, `acceptGi` and `createdAt` get their defaults, an unset `careers` gets the empty list, a value already set on any of these paths is kept, `jobAssistance` gets none, and every other path is unchanged |
| BootcampModel.DefaultsKeepValidity | models/Bootcamp.js:56-82 | the defaults never change whether a path other than `careers` is valid, and make an unset `careers` valid |
| BootcampModel.DefaultsIdempotent | models/Bootcamp.js:74-82 | defaults applied to a document that has them change nothing, whatever the instant |
| BootcampModel.CreatedAtIsShared | models/Bootcamp.js:82 | two documents built without `createdAt` get the same creation instant |
| BootcampsController.GetBootcamps | controllers/bootcamps.js:11-76 | the handler fails exactly when `select` or `sort` is a truthy array or object, `page` or `limit` is a value `String()` cannot convert, or `startIndex` is negative; otherwise it sends 200 with `success` true and `count` equal to the number of records |
| BootcampsController.ListPage | controllers/bootcamps.js:45-75 | the page step fails exactly for a negative `startIndex`; otherwise it sends 200, `success` true and the count of its records |
| BootcampsController.ParsedOr | controllers/bootcamps.js:43-44 | the handler's `parseInt(…) \|\| d` is the middleware's page and limit reading, and fails exactly for a value `String()` cannot convert |
| BootcampsController.ListQueryIsBuildQuery | controllers/bootcamps.js:12-41 | the handler builds the same filter, projection and sort as the middleware, populating `courses` |
| BootcampsController.ListPageIsRespond | controllers/bootcamps.js:45-75 | the handler's skip, limit, pagination and body agree with the middleware's |
| BootcampsController.GetBootcampsIsAdvancedResults | controllers/bootcamps.js:11-76 | for every query and every store, the handler gives the middleware's failure or sends the middleware's body with status 200 |
| BootcampsController.NotFoundError | controllers/bootcamps.js:86-89 | an unknown id gives an `ErrorResponse` with status 404 and a message ending in that id |
| BootcampsController.GetBootcamp | controllers/bootcamps.js:83-92 | the handler fails exactly for an unknown id, with the 404 error, and otherwise sends 200 with the stored document |
| BootcampsController.CreateBootcamp | controllers/bootcamps.js:99-106 | for a body given as an already-cast document without explicit `null`s, create succeeds exactly when the built document is valid and its id and name are free; it then sends 201 with the built document and adds only it; on failure the store is unchanged |
| BootcampsController.Insert | models/Bootcamp.js:7 | the unique indexes refuse a taken id or name, leaving the store unchanged; otherwise the document is added and nothing else changes |
| BootcampsController.SetPaths | controllers/bootcamps.js:114-117 | the validated paths an update sets, and only those |
| BootcampsController.UpdateErrors | controllers/bootcamps.js:114-117 | update validators report a path exactly when the update sets it and breaks its rules |
| BootcampsController.Merge | controllers/bootcamps.js:114-117 | every path the update sets takes the update's value and every other path keeps the document's; so a set path is valid exactly when it is valid in the update, and the others keep their validity |
| BootcampsController.UpdateBootcamp | controllers/bootcamps.js:113-125 | for an update given as an already-cast document without explicit `null`s, update fails on validation first, then with 404 for an unknown id, then on a name held by another document, always leaving the store unchanged; otherwise it sends 200 with the merged document, which replaces only that id |
| BootcampsController.DeleteBootcamp | controllers/bootcamps.js:132-143 | delete fails exactly for an unknown id, with the 404 error; otherwise it sends 200 with empty data and removes only that id |
| BootcampsController.UnknownIdIsNotFound | controllers/bootcamps.js:83-143 | for an unknown id, get and delete give 404, update gives 404 once the update is valid, and none of them changes the store |
| BootcampsController.CreateKeepsConsistent | controllers/bootcamps.js:99-106 | creating keeps every document valid and every name unique, and the stored name is trimmed |
| BootcampsController.UpdateKeepsConsistent | controllers/bootcamps.js:113-125 | updating keeps every document valid and every name unique |
| BootcampsController.DeleteKeepsConsistent | controllers/bootcamps.js:132-143 | deleting keeps every document valid and every name unique |
| BootcampsController.GetAfterCreate | controllers/bootcamps.js:99-106 | a created document reads back as it was sent |
| BootcampsController.GetAfterDelete | controllers/bootcamps.js:132-143 | a deleted document reads back as 404 |
| BootcampsController.UpdateTwice | controllers/bootcamps.js:113-125 | an update reads back as it was sent, and repeating it changes nothing further |

## Left out

- server.js: loading the environment, connecting to the database, mounting middleware, `listen`, and the shutdown on an unhandled rejection. These are process plumbing; only the fact that `advancedResults` failures reach that shutdown is noted above.
- routes/auth.js: route wiring with no logic.
- `getBootcampsInRadius`: it needs the external geocoder, floating-point division by the Earth's radius (3963 miles), and the store's geospatial query.
- What the store does with the query: how `JSON.parse` reads the filter text, how the filter selects documents, and how `.sort`, `.select` and `.populate` act. `find` is a parameter, so every property holds for every store.
- `JSON.parse` of the rewritten text: a `$` is never inserted directly after a backslash of a JSON escape, because every escape letter (`b f n r t u`, `"`, `\`) starts no operator. The parse therefore cannot fail, and no invalid-JSON error is modelled.
- Store errors other than a negative skip, such as a lost connection.
- Concurrency between the count and the page read.
- The property order of JavaScript objects for integer-like keys: such keys come first and ascend. The model keeps the order in which the query lists its keys.
- Lengths are counted in Unicode scalar values, not in UTF-16 code units as JavaScript counts `maxlength`.
- `parseInt` above 2^53, where JavaScript loses precision.
- AdvancedResults.StartIndex: `(page - 1) * limit` and `page * limit` are computed exactly. In JavaScript they are doubles, so a product above 2^53 is rounded even when `page` and `limit` are below it. That can change the `skip` sent to the store and the `endIndex < total` test. The model does not round.
- The `website` and `email` regular expressions (models/Bootcamp.js:17-34): they would need a regular-expression engine. These paths are not validated in the model.
- The `coordinates` array and its `2dsphere` index, and the `slug`.
- The order of the keys of Mongoose's `errors` object. The model lists errors in the schema's path order, with the element errors of `careers` at its place.
- A malformed id (a `CastError` in `findById`) and a `null` update body.
- BootcampsController.CreateBootcamp: the body is taken as an already-cast document with no explicit `null`s. In Mongoose, `careers: null` fails `required`, but the model reads it as unset and gives `[]`. `photo: null` stays `null`, but the model writes the default photo. Casting is not modelled either: a string `careers` is not wrapped into an array, and a `CastError` such as `averageCost: "abc"` cannot arise.
- BootcampsController.UpdateBootcamp: the update is taken as an already-cast document with no explicit `null`s. In Mongoose, `{name: null}` sets the path to `null` and fails `required` in the update validators. The model reads it as unset, and the update keeps the old name. Casting and `CastError`s are left out as for create.
- `asyncHandler`, the error middleware and the response status for validation and duplicate-key errors, which are not in the modelled files. Validation and duplicate-key errors are returned as `Rejected` and `DuplicateKey`.
- The clock: `new Date()` in the `createdAt` default is the `schemaLoadTime` parameter.
- The removal in `deleteBootcamp` (`bootcamp.remove()`) is not awaited; the model removes the document before replying.

=== FILE: advanced_results.dfy ===
/** The shared list-query middleware `advancedResults(model, populate)`: it
    turns the request's query parameters into a filtered, projected, sorted and
    paginated read of a collection, and produces the response body
    `{ success, count, pagination, data }`.

    The store is abstract: `find` stands for what the store returns for a
    filter, projection, sort order and populate path before any skip or
    limit, and `collection` for the whole collection, whose length is what
    `countDocuments()` reports. */
module AdvancedResults {
  import opened Outcomes
  import opened JsText
  import opened QueryParams
  import opened OperatorRewrite

  const DefaultPage: int := 1
  const DefaultLimit: int := 100
  const DefaultSort: string := "-createdAt"

  /** A page descriptor in the pagination object. */
  datatype PageRef = PageRef(page: int, limit: int)

  /** `pagination`: `next` and `prev` are the only properties ever set. */
  datatype Pagination = Pagination(next: Option<PageRef>, prev: Option<PageRef>)

  /** What the query builder hands to the store before skip and limit. */
  datatype StoreQuery = StoreQuery(
    filter: string,            // the JSON text after the operator rewrite
    projection: Option<string>, // `.select(fields)`, when applied
    sortBy: string,            // `.sort(spec)`
    populate: Option<string>)  // `.populate(path)`, when applied

  datatype Response<R> = Response(success: bool, count: nat, pagination: Pagination, data: seq<R>)

  datatype Failure =
    | NotSplittable(param: string) // `req.query[param].split` on an array or object: a TypeError
    | NotConvertible(param: string) // `String(req.query[param])` in `parseInt` throws a TypeError
    | NegativeSkip(skip: int)      // the store refuses `.skip(n)` with n < 0

  // ----------------------------------------------------------------- filter

  /** The JSON text of the query without its control keys, with `$` put in
      front of every whole-word operator. */
  function FilterText(q: Query): string
  {
    RewriteOperators(Stringify(Obj(RemoveControlKeys(q))))
  }

  /** For a query whose keys and values need no JSON escaping, the store's
      filter is the query minus its control keys, with every key and every
      string value rewritten: `price[gte]=100` becomes `{"price":{"$gte":"100"}}`,
      and a value that is an operator word is rewritten too. */
  lemma FilterTextPlain(q: Query)
    requires Plain(Obj(q))
    ensures FilterText(q) == Stringify(Obj(MapFields(RemoveControlKeys(q), RewriteOperators)))
  {
    var r := RemoveControlKeys(q);
    assert Plain(Obj(r)) by {
      forall i | 0 <= i < |r| ensures PlainString(r[i].key) && Plain(r[i].value) {
        var j :| 0 <= j < |q| && q[j] == r[i];
      }
    }
    RewriteStringifyPlain(Obj(r));
  }

  /** A comparison on one field, `?field[op]=value` with an operator `op`,
      reaches the store as `{"field":{"$op":"value"}}` when the field and the
      value are single words that are not operators themselves:
      `price[gte]=100` becomes `{"price":{"$gte":"100"}}`. */
  lemma FilterTextComparison(field: string, op: string, value: string)
    requires field != [] && AllWord(field) && !IsOperator(field) && field !in ControlKeys
    requires IsOperator(op)
    requires value != [] && AllWord(value) && !IsOperator(value)
    ensures FilterText([Field(field, Obj([Field(op, Str(value))]))]) ==
      "{\"" + field + "\":{\"" + ("$" + op) + "\":\"" + value + "\"}}"
  {
    var q := [Field(field, Obj([Field(op, Str(value))]))];
    assert AllWord(op) by {
      IsOperatorIsAlternative(op);
      AlternativesAreWords();
    }
    WordsArePlain(field, op, value);
    FilterTextPlain(q);
    assert RemoveControlKeys(q) == q;
    RewriteSingleWord(field);
    RewriteSingleWord(op);
    RewriteSingleWord(value);
    MapComparison(field, op, value, RewriteOperators);
    StringifyNested(field, "$" + op, value);
  }

  lemma WordsArePlain(field: string, op: string, value: string)
    requires AllWord(field) && AllWord(op) && AllWord(value)
    ensures Plain(Obj([Field(field, Obj([Field(op, Str(value))]))]))
    ensures PlainString("$" + op)
  {
    assert Plain(Obj([Field(op, Str(value))]));
  }

  /** A word alone is rewritten exactly when it is an operator. */
  lemma RewriteSingleWord(w: string)
    requires w != [] && AllWord(w)
    ensures RewriteOperators(w) == if IsOperator(w) then "$" + w else w
  {
    RewriteWholeWord([], w, []);
    assert [] + w + [] == w;
    assert RewriteOperators([]) == [];
  }

  lemma MapComparison(field: string, op: string, value: string, f: string -> string)
    requires f(field) == field && f(op) == "$" + op && f(value) == value
    ensures MapFields([Field(field, Obj([Field(op, Str(value))]))], f) ==
      [Field(field, Obj([Field("$" + op, Str(value))]))]
  {
    assert MapFields([Field(op, Str(value))], f) == [Field("$" + op, Str(value))];
  }

  /** The serialisation of `{ a: { b: c } }` for strings that need no escaping. */
  lemma StringifyNested(a: string, b: string, c: string)
    requires PlainString(a) && PlainString(b) && PlainString(c)
    ensures Stringify(Obj([Field(a, Obj([Field(b, Str(c))]))])) == "{\"" + a + "\":{\"" + b + "\":\"" + c + "\"}}"
  {
    EscapePlain(a);
    EscapePlain(b);
    EscapePlain(c);
    var inner := Obj([Field(b, Str(c))]);
    StringifyOneField(b, Str(c), Escape);
    StringifyOneField(a, inner, Escape);
    NestedText(a, b, c);
  }

  lemma NestedText(a: string, b: string, c: string)
    ensures "{" + ("\"" + a + "\":" + ("{" + ("\"" + b + "\":" + ("\"" + c + "\"")) + "}")) + "}" ==
      "{\"" + a + "\":{\"" + b + "\":\"" + c + "\"}}"
  {
  }

  lemma StringifyOneField(k: string, v: Value, enc: string -> string)
    ensures StringifyFields([Field(k, v)], enc) == "\"" + enc(k) + "\":" + StringifyWith(v, enc)
  {
  }

  // -------------------------------------------------------- select and sort

  /** `s.split(",").join(" ")`. */
  function CommasToSpaces(s: string): (r: string)
    ensures |r| == |s|
    ensures forall i :: 0 <= i < |s| ==> r[i] == (if s[i] == ',' then ' ' else s[i])
    ensures ',' !in r
  {
    SplitJoinReplaces(s, ',', ' ');
    Join(Split(s, ','), " ")
  }

  /** A truthy parameter turned into a space-separated list. `None` when the
      parameter is missing or the empty string (falsy in JavaScript); a
      failure when it is an array or an object, which have no `split`. */
  function SpaceList(q: Query, name: string): (r: Result<Option<string>, Failure>)
    ensures r == Ok(None) <==> Lookup(q, name) == None || Lookup(q, name) == Some(Str(""))
    ensures r.Err? <==> Lookup(q, name).Some? && !Lookup(q, name).value.Str?
    ensures r.Ok? && r.value.Some? ==>
      exists s :: Lookup(q, name) == Some(Str(s)) && s != "" && r.value.value == CommasToSpaces(s)
  {
    match Lookup(q, name)
    case None => Ok(None)
    case Some(Str(s)) => if s == "" then Ok(None) else Ok(Some(CommasToSpaces(s)))
    case Some(_) => Err(NotSplittable(name))
  }

  /** The projection: applied only when `select` is a non-empty string. */
  function SelectFields(q: Query): Result<Option<string>, Failure>
  {
    SpaceList(q, SelectKey)
  }

  /** The sort order, `-createdAt` (newest first) when `sort` is missing or empty. */
  function SortOrder(q: Query): (r: Result<string, Failure>)
    ensures Lookup(q, SortKey) == None ==> r == Ok(DefaultSort)
    ensures Lookup(q, SortKey) == Some(Str("")) ==> r == Ok(DefaultSort)
    ensures forall s :: Lookup(q, SortKey) == Some(Str(s)) && s != "" ==> r == Ok(CommasToSpaces(s))
    ensures r.Err? <==> Lookup(q, SortKey).Some? && !Lookup(q, SortKey).value.Str?
  {
    match SpaceList(q, SortKey)
    case Err(e) => Err(e)
    case Ok(None) => Ok(DefaultSort)
    case Ok(Some(t)) => Ok(t)
  }

  // -------------------------------------------------------- page and limit

  /** `parseInt(v, 10) || default`: `NaN` and 0 are falsy and give the default;
      every other parsed value, negative ones included, is kept. `None` when
      `String(v)` throws. */
  function IntParamOr(v: Option<Value>, default: int): (r: Option<int>)
    ensures r.None? <==> JsString(v).None?
    ensures r.Some? ==> (r.value == default <==> ParseInt(JsString(v).value) in {None, Some(0), Some(default)})
    ensures r.Some? && r.value != default ==> ParseInt(JsString(v).value) == Some(r.value)
    ensures r.Some? && default != 0 ==> r.value != 0
  {
    match JsString(v)
    case None => None
    case Some(text) =>
      match ParseInt(text)
      case None => Some(default)
      case Some(n) => if n == 0 then Some(default) else Some(n)
  }

  /** The page number; a failure when `page` is a value `String()` cannot
      convert. */
  function PageNumber(q: Query): (r: Result<int, Failure>)
    ensures r.Err? <==> Lookup(q, PageKey).Some? && NoPrimitive(Lookup(q, PageKey).value)
    ensures r.Err? ==> r.error == NotConvertible(PageKey)
    ensures r.Ok? ==> r.value != 0 && IntParamOr(Lookup(q, PageKey), DefaultPage) == Some(r.value)
    ensures Lookup(q, PageKey).None? ==> r == Ok(DefaultPage)
  {
    JsStringSpec(Lookup(q, PageKey));
    match IntParamOr(Lookup(q, PageKey), DefaultPage)
    case None => Err(NotConvertible(PageKey))
    case Some(n) => Ok(n)
  }

  /** The page size; a failure when `limit` is a value `String()` cannot
      convert. */
  function PageLimit(q: Query): (r: Result<int, Failure>)
    ensures r.Err? <==> Lookup(q, LimitKey).Some? && NoPrimitive(Lookup(q, LimitKey).value)
    ensures r.Err? ==> r.error == NotConvertible(LimitKey)
    ensures r.Ok? ==> r.value != 0 && IntParamOr(Lookup(q, LimitKey), DefaultLimit) == Some(r.value)
    ensures Lookup(q, LimitKey).None? ==> r == Ok(DefaultLimit)
  {
    JsStringSpec(Lookup(q, LimitKey));
    match IntParamOr(Lookup(q, LimitKey), DefaultLimit)
    case None => Err(NotConvertible(LimitKey))
    case Some(n) => Ok(n)
  }

  /** An absent `page` or `limit` reads as the text `undefined`, which has no
      digits: page 1 and limit 100. Neither value is ever 0. */
  lemma PageAndLimitDefaults(q: Query)
    ensures Lookup(q, PageKey) == None ==> PageNumber(q) == Ok(1)
    ensures Lookup(q, LimitKey) == None ==> PageLimit(q) == Ok(100)
    ensures PageNumber(q).Ok? ==> PageNumber(q).value != 0
    ensures PageLimit(q).Ok? ==> PageLimit(q).value != 0
  {
    assert TrimStart(UndefinedText) == UndefinedText;
    assert LeadingDigits(UndefinedText) == "";
  }

  /** A parameter written as a decimal number, with any white space before it
      and any non-digit text after it (`"3"`, `" 3"`, `"3abc"`, `"-2"`), is
      that number, unless it is 0. */
  lemma IntParamReadsNumber(ws: string, n: int, tail: string, default: int)
    requires AllSpace(ws)
    requires tail == [] || !IsDigit(tail[0])
    ensures IntParamOr(Some(Str(ws + ShowInt(n) + tail)), default) == Some(if n == 0 then default else n)
  {
    ParseIntShowInt(ws, n, tail);
  }

  // ------------------------------------------------------------- pagination

  function StartIndex(page: int, limit: int): int
  {
    (page - 1) * limit
  }

  function EndIndex(page: int, limit: int): int
  {
    page * limit
  }

  /** The pagination object built from the page, the limit and the total. */
  function Paginate(page: int, limit: int, total: nat): (p: Pagination)
    ensures p.next.Some? <==> EndIndex(page, limit) < total
    ensures p.prev.Some? <==> StartIndex(page, limit) > 0
    ensures p.next.Some? ==> p.next.value == PageRef(page + 1, limit)
    ensures p.prev.Some? ==> p.prev.value == PageRef(page - 1, limit)
  {
    Pagination(
      if page * limit < total then Some(PageRef(page + 1, limit)) else None,
      if (page - 1) * limit > 0 then Some(PageRef(page - 1, limit)) else None)
  }

  /** With a positive page and limit, `prev` appears exactly after the first
      page, and `next` exactly when the collection holds records past the
      current page. */
  lemma PaginateOrdinary(page: int, limit: int, total: nat)
    requires page >= 1 && limit >= 1
    ensures Paginate(page, limit, total).prev.Some? <==> page > 1
    ensures Paginate(page, limit, total).next.Some? <==> total - (page - 1) * limit > limit
  {
    if page > 1 {
      assert (page - 1) * limit >= limit;
    }
  }

  // ------------------------------------------------ skip and limit (store)

  /** `.skip(skip).limit(limit)` on what the store found. A negative skip is
      refused by the store; a limit of 0 means no limit and a negative limit
      counts by its magnitude. */
  function Window<R>(rs: seq<R>, skip: int, limit: int): (r: Result<seq<R>, Failure>)
    ensures r.Err? <==> skip < 0
    ensures r.Ok? ==> skip + |r.value| <= |rs| || r.value == []
    ensures r.Ok? && r.value != [] ==> r.value == rs[skip..skip + |r.value|]
    ensures r.Ok? && limit != 0 ==> |r.value| <= Abs(limit)
    ensures r.Ok? ==> |r.value| == Min(Avail(|rs|, skip), if limit == 0 then |rs| else Abs(limit))
  {
    if skip < 0 then Err(NegativeSkip(skip))
    else
      var from := if skip <= |rs| then skip else |rs|;
      var rest := rs[from..];
      var n := if limit == 0 || Abs(limit) >= |rest| then |rest| else Abs(limit);
      Ok(rest[..n])
  }

  function Abs(n: int): nat {
    if n < 0 then -n else n
  }

  function Min(a: nat, b: nat): nat {
    if a < b then a else b
  }

  /** The records left after skipping `skip` of `n`. */
  function Avail(n: nat, skip: int): nat {
    if skip >= n then 0 else if skip < 0 then n else n - skip
  }

  // ----------------------------------------------------------- the pipeline

  /** `if (populate) query = query.populate(populate)`: the empty string is falsy. */
  function PopulateIfSet(populate: Option<string>): (r: Option<string>)
    ensures r.Some? <==> populate.Some? && populate.value != ""
    ensures r.Some? ==> r == populate
  {
    if populate.Some? && populate.value != "" then populate else None
  }

  /** The query the store runs, before skip and limit. */
  function BuildQuery(q: Query, projection: Option<string>, sortBy: string, populate: Option<string>): StoreQuery
  {
    StoreQuery(FilterText(q), projection, sortBy, populate)
  }

  /** The response for one page of what the store found, once the page and
      the limit are known: skip and limit, then the pagination object. */
  function Respond<R>(page: int, limit: int, total: nat, found: seq<R>): (r: Result<Response<R>, Failure>)
    ensures r.Err? <==> StartIndex(page, limit) < 0
    ensures r.Ok? ==> r.value.success && r.value.count == |r.value.data|
    ensures r.Ok? ==> r.value.pagination == Paginate(page, limit, total)
    ensures r.Ok? && limit != 0 ==> |r.value.data| <= Abs(limit)
    ensures r.Ok? ==>
      |r.value.data| == Min(Avail(|found|, StartIndex(page, limit)), if limit == 0 then |found| else Abs(limit))
    ensures r.Ok? && r.value.data != [] ==>
      && StartIndex(page, limit) + |r.value.data| <= |found|
      && r.value.data == found[StartIndex(page, limit)..StartIndex(page, limit) + |r.value.data|]
  {
    match Window(found, StartIndex(page, limit), limit)
    case Err(e) => Err(e)
    case Ok(results) => Ok(Response(true, |results|, Paginate(page, limit, total), results))
  }

  /** The records of pages 1 to `n`, read one after another with the same
      positive limit. */
  function PagesRead<R>(found: seq<R>, limit: int, n: nat): seq<R>
    requires limit >= 1
  {
    if n == 0 then []
    else
      assert StartIndex(n, limit) >= 0 by { NonNegativeStart(n, limit); }
      PagesRead(found, limit, n - 1) + Respond(n, limit, |found|, found).value.data
  }

  lemma NonNegativeStart(page: int, limit: int)
    requires page >= 1 && limit >= 1
    ensures StartIndex(page, limit) >= 0
    ensures StartIndex(page, limit) + limit == EndIndex(page, limit)
  {
  }

  lemma PrefixThenSlice<R>(s: seq<R>, i: nat, j: nat)
    requires i <= j <= |s|
    ensures s[..i] + s[i..j] == s[..j]
  {
  }

  /** Pages tile the store's answer: reading pages 1 to `n` in turn gives its
      first `n * limit` records (all of them once it runs out), each once and
      in order, with no gap and no overlap between consecutive pages. */
  lemma {:induction false} PagesTile<R>(found: seq<R>, limit: int, n: nat)
    requires limit >= 1
    ensures PagesRead(found, limit, n) == found[..Min(|found|, n * limit)]
  {
    if n > 0 {
      PagesTile(found, limit, n - 1);
      NonNegativeStart(n, limit);
      var start := StartIndex(n, limit);
      assert start == (n - 1) * limit;
      var d := Respond(n, limit, |found|, found).value.data;
      assert |d| == Min(Avail(|found|, start), limit);
      if start >= |found| {
        assert d == [];
      } else {
        assert d == found[start..start + |d|];
        PrefixThenSlice(found, start, start + |d|);
      }
    }
  }

  /** `res.advancedResults` as the middleware leaves it for the next handler.
      The failures are those of `select` and `sort`, then of `page` and
      `limit`, then the store's refusal of a negative skip. */
  function Run<R>(q: Query, populate: Option<string>, collection: seq<R>, find: StoreQuery -> seq<R>)
    : (r: Result<Response<R>, Failure>)
    ensures r.Err? <==>
      || SelectFields(q).Err? || SortOrder(q).Err? || PageNumber(q).Err? || PageLimit(q).Err?
      || StartIndex(PageNumber(q).value, PageLimit(q).value) < 0
    ensures r.Ok? ==>
      r == Respond(PageNumber(q).value, PageLimit(q).value, |collection|, Found(q, populate, find))
  {
    match SelectFields(q)
    case Err(e) => Err(e)
    case Ok(projection) =>
      match SortOrder(q)
      case Err(e) => Err(e)
      case Ok(sortBy) =>
        match PageNumber(q)
        case Err(e) => Err(e)
        case Ok(page) =>
          match PageLimit(q)
          case Err(e) => Err(e)
          case Ok(limit) =>
            var found := find(BuildQuery(q, projection, sortBy, PopulateIfSet(populate)));
            Respond(page, limit, |collection|, found)
  }

  /** The middleware fails exactly when `select` or `sort` is an array or an
      object, when `page` or `limit` is a value `String()` cannot convert, or
      when the page and limit give a negative `startIndex`. */
  lemma RunFails<R>(q: Query, populate: Option<string>, collection: seq<R>, find: StoreQuery -> seq<R>)
    ensures Run(q, populate, collection, find).Err? <==>
      || (Lookup(q, SelectKey).Some? && !Lookup(q, SelectKey).value.Str?)
      || (Lookup(q, SortKey).Some? && !Lookup(q, SortKey).value.Str?)
      || (Lookup(q, PageKey).Some? && NoPrimitive(Lookup(q, PageKey).value))
      || (Lookup(q, LimitKey).Some? && NoPrimitive(Lookup(q, LimitKey).value))
      || StartIndex(PageNumber(q).value, PageLimit(q).value) < 0
  {
  }

  /** A successful response reports success, counts exactly the records it
      returns, returns `limit` consecutive records of what the store found
      starting at `startIndex` (fewer only when the store's answer runs out),
      and carries the pagination object of the page, the limit and the size
      of the whole collection. */
  lemma RunResponse<R>(q: Query, populate: Option<string>, collection: seq<R>, find: StoreQuery -> seq<R>)
    requires SelectFields(q).Ok? && SortOrder(q).Ok? && PageNumber(q).Ok? && PageLimit(q).Ok?
    requires StartIndex(PageNumber(q).value, PageLimit(q).value) >= 0
    ensures Run(q, populate, collection, find).Ok?
    ensures var r := Run(q, populate, collection, find).value;
      var found := Found(q, populate, find);
      var page, limit := PageNumber(q).value, PageLimit(q).value;
      var start := StartIndex(page, limit);
      && r.success && r.count == |r.data|
      && r.pagination == Paginate(page, limit, |collection|)
      && 0 <= start
      && |r.data| == Min(Avail(|found|, start), Abs(limit))
      && (r.data == [] || (start + |r.data| <= |found| && r.data == found[start..start + |r.data|]))
  {
    var page, limit := PageNumber(q).value, PageLimit(q).value;
    var found := Found(q, populate, find);
    RespondPage(page, limit, |collection|, found);
    assert Run(q, populate, collection, find) == Respond(page, limit, |collection|, found);
  }

  /** `Respond` with a non-zero limit and a non-negative start. */
  lemma RespondPage<R>(page: int, limit: int, total: nat, found: seq<R>)
    requires limit != 0 && StartIndex(page, limit) >= 0
    ensures Respond(page, limit, total, found).Ok?
    ensures var r := Respond(page, limit, total, found).value;
      var start := StartIndex(page, limit);
      && r.success && r.count == |r.data|
      && r.pagination == Paginate(page, limit, total)
      && |r.data| == Min(Avail(|found|, start), Abs(limit))
      && (r.data == [] || (start + |r.data| <= |found| && r.data == found[start..start + |r.data|]))
  {
  }

  /** What the store returns, before skip and limit, for the query built from
      `q` (defined when `select` and `sort` are usable). */
  function Found<R>(q: Query, populate: Option<string>, find: StoreQuery -> seq<R>): seq<R>
    requires SelectFields(q).Ok? && SortOrder(q).Ok?
  {
    find(BuildQuery(q, SelectFields(q).value, SortOrder(q).value, PopulateIfSet(populate)))
  }

  /** The pagination object depends on the query and on the size of the whole
      collection only, never on what the filter selects: `countDocuments()`
      is called without the filter. */
  lemma PaginationIgnoresFilter<R>(q: Query, populate: Option<string>, collection: seq<R>,
                                   find1: StoreQuery -> seq<R>, find2: StoreQuery -> seq<R>)
    requires SelectFields(q).Ok? && SortOrder(q).Ok? && PageNumber(q).Ok? && PageLimit(q).Ok?
    requires StartIndex(PageNumber(q).value, PageLimit(q).value) >= 0
    ensures Run(q, populate, collection, find1).Ok? && Run(q, populate, collection, find2).Ok?
    ensures Run(q, populate, collection, find1).value.pagination ==
            Run(q, populate, collection, find2).value.pagination
  {
  }

  /** When the store's answer is the whole collection (no filter), a positive
      page and limit give `next` exactly when the following page would hold a
      record, and `prev` exactly when the page is not the first. */
  lemma NextMeansMoreRecords<R>(q: Query, populate: Option<string>, collection: seq<R>,
                                find: StoreQuery -> seq<R>)
    requires forall sq :: find(sq) == collection
    requires SelectFields(q).Ok? && SortOrder(q).Ok? && PageNumber(q).Ok? && PageLimit(q).Ok?
    requires PageNumber(q).value >= 1 && PageLimit(q).value >= 1
    ensures Run(q, populate, collection, find).Ok?
    ensures var p := Run(q, populate, collection, find).value.pagination;
      var page, limit := PageNumber(q).value, PageLimit(q).value;
      && (p.next.Some? <==> Window(collection, EndIndex(page, limit), limit).value != [])
      && (p.prev.Some? <==> page > 1)
  {
    var page := PageNumber(q).value;
    var limit := PageLimit(q).value;
    PaginateOrdinary(page, limit, |collection|);
    assert StartIndex(page, limit) >= 0;
    assert EndIndex(page, limit) == StartIndex(page, limit) + limit;
  }
}

=== FILE: bootcamp_model.dfy ===
/** The Bootcamp schema: the record a bootcamp document holds, the validators
    Mongoose runs on it, the `trim` setter on `name`, and the schema defaults. */
module BootcampModel {
  import opened Outcomes
  import opened JsText

  const NameMaxLength: nat := 50
  const DescriptionMaxLength: nat := 500
  const PhoneMaxLength: nat := 20
  const MinRating: real := 1.0
  const MaxRating: real := 10.0
  const PointType: string := "Point"
  const DefaultPhoto: string := "no-photo.jpg"

  /** The values the `careers` enum allows. */
  const CareerChoices: seq<string> :=
    ["Web Development", "Mobile Development", "UI/UX", "Data Science", "Business", "Others"]

  /** The GeoJSON part of a bootcamp; the coordinates are not modelled. */
  datatype Location = Location(
    kind: Option<string>,  // `location.type`
    formattedAddress: Option<string>,
    street: Option<string>,
    city: Option<string>,
    state: Option<string>,  // `location.State`
    zipcode: Option<string>,
    country: Option<string>)

  /** A bootcamp document as Mongoose holds it after casting; `None` is an
      unset path. An explicit `null` and a value of the wrong type have no
      representation here. */
  datatype Bootcamp = Bootcamp(
    name: Option<string>,
    slug: Option<string>,
    description: Option<string>,
    website: Option<string>,
    phone: Option<string>,
    email: Option<string>,
    address: Option<string>,
    location: Option<Location>,
    careers: Option<seq<string>>,
    averageRating: Option<real>,
    averageCost: Option<real>,
    photo: Option<string>,
    housing: Option<bool>,
    jobAssistance: Option<bool>,
    jobGuarantee: Option<bool>,
    acceptGi: Option<bool>,
    createdAt: Option<int>)

  /** The schema paths that carry validators. */
  datatype Path = NamePath | DescriptionPath | PhonePath | AddressPath | LocationTypePath | CareersPath | RatingPath

  /** Mongoose's `required` check on a string path: set and not empty. */
  predicate RequiredString(v: Option<string>) {
    v.Some? && v.value != ""
  }

  /** `maxlength`, which only applies to a set value. */
  predicate AtMost(v: Option<string>, n: nat) {
    v.None? || |v.value| <= n
  }

  predicate IsCareer(c: string) {
    c in CareerChoices
  }

  /** What the schema demands of one path. */
  predicate PathValid(b: Bootcamp, p: Path) {
    match p
    case NamePath => RequiredString(b.name) && AtMost(b.name, NameMaxLength)
    case DescriptionPath => RequiredString(b.description) && AtMost(b.description, DescriptionMaxLength)
    case PhonePath => AtMost(b.phone, PhoneMaxLength)
    case AddressPath => RequiredString(b.address)
    case LocationTypePath => b.location.None? || b.location.value.kind.None? || b.location.value.kind.value == PointType
    case CareersPath => b.careers.Some? && forall i :: 0 <= i < |b.careers.value| ==> IsCareer(b.careers.value[i])
    case RatingPath => b.averageRating.None? || (MinRating <= b.averageRating.value <= MaxRating)
  }

  /** A document every validator of the schema accepts. */
  predicate Valid(b: Bootcamp) {
    forall p :: PathValid(b, p)
  }

  // ------------------------------------------------------------ validation

  datatype Rule = Required | MaxLength(max: nat) | InEnum | AtLeast | AtMostValue

  /** One validator's error: the schema path it belongs to, the index of the
      element for an element of `careers` (Mongoose validates each element at
      its own path, `careers.<i>`), the failing rule and its message. */
  datatype ValidationError = ValidationError(path: Path, element: Option<nat>, rule: Rule, message: string)

  /** The messages the schema gives its validators, as written there. */
  const NameRequiredMessage: string := "Please add a name"
  const NameTooLongMessage: string := "Name can not be more than 50 characters"
  const DescriptionRequiredMessage: string := "Please add a description"
  const DescriptionTooLongMessage: string := "Description can not be more than 500 characters"
  const PhoneTooLongMessage: string := "Phone number can nou be longer than 20 characters"
  const AddressRequiredMessage: string := "Please add an address"
  const RatingTooLowMessage: string := "Rating must be at least 1"
  const RatingTooHighMessage: string := "Rating can not be more than 10"

  /** Mongoose's default message for a `required` validator without one. */
  function RequiredMessage(path: string): string {
    "Path `" + path + "` is required."
  }

  /** Mongoose's default message for an `enum` validator. */
  function EnumMessage(value: string, path: string): string {
    "`" + value + "` is not a valid enum value for path `" + path + "`."
  }

  const CareersName: string := "careers"
  const LocationTypeName: string := "location.type"

  /** The path Mongoose validates element `i` of `careers` at. */
  function ElementPath(i: nat): string {
    CareersName + "." + ShowNat(i)
  }

  /** The message the schema declares for a rule of a path; `None` where the
      schema declares none and Mongoose's default message applies. */
  function DeclaredMessage(p: Path, rule: Rule): Option<string> {
    match p
    case NamePath =>
      if rule.Required? then Some(NameRequiredMessage)
      else if rule.MaxLength? then Some(NameTooLongMessage)
      else None
    case DescriptionPath =>
      if rule.Required? then Some(DescriptionRequiredMessage)
      else if rule.MaxLength? then Some(DescriptionTooLongMessage)
      else None
    case PhonePath => if rule.MaxLength? then Some(PhoneTooLongMessage) else None
    case AddressPath => if rule.Required? then Some(AddressRequiredMessage) else None
    case RatingPath =>
      if rule.AtLeast? then Some(RatingTooLowMessage)
      else if rule.AtMostValue? then Some(RatingTooHighMessage)
      else None
    case LocationTypePath => None
    case CareersPath => None
  }

  /** The schema's rule `rule` of path `p` rejects the document. For each
      path other than `careers` at most one rule can be broken at a time:
      an empty or missing string is within any length, and a rating cannot
      be both below 1 and above 10. */
  predicate Breaks(b: Bootcamp, p: Path, rule: Rule) {
    match p
    case NamePath =>
      || (rule == Required && !RequiredString(b.name))
      || (rule == MaxLength(NameMaxLength) && !AtMost(b.name, NameMaxLength))
    case DescriptionPath =>
      || (rule == Required && !RequiredString(b.description))
      || (rule == MaxLength(DescriptionMaxLength) && !AtMost(b.description, DescriptionMaxLength))
    case PhonePath => rule == MaxLength(PhoneMaxLength) && !AtMost(b.phone, PhoneMaxLength)
    case AddressPath => rule == Required && !RequiredString(b.address)
    case LocationTypePath =>
      rule == InEnum && b.location.Some? && b.location.value.kind.Some? && b.location.value.kind.value != PointType
    case CareersPath =>
      || (rule == Required && b.careers.None?)
      || (rule == InEnum && b.careers.Some? && exists i :: 0 <= i < |b.careers.value| && !IsCareer(b.careers.value[i]))
    case RatingPath =>
      || (rule == AtLeast && b.averageRating.Some? && b.averageRating.value < MinRating)
      || (rule == AtMostValue && b.averageRating.Some? && b.averageRating.value > MaxRating)
  }

  /** The first failing validator of a path, with the schema's message (or
      Mongoose's default message where the schema gives none); for `careers`,
      one error per element outside the enum. */
  function PathErrors(b: Bootcamp, p: Path): (r: seq<ValidationError>)
    ensures p != CareersPath ==> |r| <= 1
    ensures r == [] <==> PathValid(b, p)
    ensures forall i :: 0 <= i < |r| ==> r[i].path == p
    ensures forall i :: 0 <= i < |r| ==> Breaks(b, p, r[i].rule)
    ensures forall i :: 0 <= i < |r| && DeclaredMessage(p, r[i].rule).Some? ==>
      r[i].message == DeclaredMessage(p, r[i].rule).value
  {
    match p
    case NamePath =>
      if !RequiredString(b.name) then [ValidationError(p, None, Required, NameRequiredMessage)]
      else if |b.name.value| > NameMaxLength then
        [ValidationError(p, None, MaxLength(NameMaxLength), NameTooLongMessage)]
      else []
    case DescriptionPath =>
      if !RequiredString(b.description) then [ValidationError(p, None, Required, DescriptionRequiredMessage)]
      else if |b.description.value| > DescriptionMaxLength then
        [ValidationError(p, None, MaxLength(DescriptionMaxLength), DescriptionTooLongMessage)]
      else []
    case PhonePath =>
      if !AtMost(b.phone, PhoneMaxLength) then
        [ValidationError(p, None, MaxLength(PhoneMaxLength), PhoneTooLongMessage)]
      else []
    case AddressPath =>
      if !RequiredString(b.address) then [ValidationError(p, None, Required, AddressRequiredMessage)] else []
    case LocationTypePath =>
      if PathValid(b, p) then []
      else [ValidationError(p, None, InEnum, EnumMessage(b.location.value.kind.value, LocationTypeName))]
    case CareersPath => CareersErrors(b)
    case RatingPath =>
      if b.averageRating.Some? && b.averageRating.value < MinRating then
        [ValidationError(p, None, AtLeast, RatingTooLowMessage)]
      else if b.averageRating.Some? && b.averageRating.value > MaxRating then
        [ValidationError(p, None, AtMostValue, RatingTooHighMessage)]
      else []
  }

  /** `careers` is required, which for an array only rejects a missing one,
      and every element must be one of the enum's values. A missing list
      gives the `required` error; otherwise every element outside the enum
      gives its own error, at `careers.<i>`, in the order of the elements. */
  function CareersErrors(b: Bootcamp): (r: seq<ValidationError>)
    ensures r == [] <==> PathValid(b, CareersPath)
    ensures forall k :: 0 <= k < |r| ==> r[k].path == CareersPath
    ensures b.careers.None? ==> r == [ValidationError(CareersPath, None, Required, RequiredMessage(CareersName))]
    ensures b.careers.Some? ==> forall k :: 0 <= k < |r| ==>
      && r[k].element.Some? && r[k].element.value < |b.careers.value|
      && !IsCareer(b.careers.value[r[k].element.value])
      && r[k] == ElementError(b.careers.value, r[k].element.value)
    ensures b.careers.Some? ==> forall i :: 0 <= i < |b.careers.value| && !IsCareer(b.careers.value[i]) ==>
      ElementError(b.careers.value, i) in r
    ensures b.careers.Some? ==> forall k, l :: 0 <= k < l < |r| ==> r[k].element.value < r[l].element.value
  {
    if b.careers.None? then [ValidationError(CareersPath, None, Required, RequiredMessage(CareersName))]
    else
      var cs := b.careers.value;
      ElementErrorsSpec(cs, 0);
      var r := ElementErrors(cs, 0);
      assert r != [] ==> !IsCareer(cs[r[0].element.value]);
      r
  }

  /** The enum error of element `i` of `careers`. */
  function ElementError(cs: seq<string>, i: nat): ValidationError
    requires i < |cs|
  {
    ValidationError(CareersPath, Some(i), InEnum, EnumMessage(cs[i], ElementPath(i)))
  }

  /** The enum errors of the elements from index `from` on. */
  function ElementErrors(cs: seq<string>, from: nat): seq<ValidationError>
    requires from <= |cs|
    decreases |cs| - from
  {
    if from == |cs| then []
    else (if IsCareer(cs[from]) then [] else [ElementError(cs, from)]) + ElementErrors(cs, from + 1)
  }

  /** The errors from index `from` on are the enum errors of exactly the
      elements outside the enum, by increasing index. */
  lemma ElementErrorsSpec(cs: seq<string>, from: nat)
    requires from <= |cs|
    ensures ErrorsSound(ElementErrors(cs, from), cs, from)
    ensures forall i :: from <= i < |cs| && !IsCareer(cs[i]) ==> ElementError(cs, i) in ElementErrors(cs, from)
    ensures forall k, l :: 0 <= k < l < |ElementErrors(cs, from)| ==>
      ElementErrors(cs, from)[k].element.value < ElementErrors(cs, from)[l].element.value
  {
    ElementErrorsSound(cs, from);
    ElementErrorsComplete(cs, from);
    ElementErrorsOrdered(cs, from);
  }

  /** Every error in `es` is the enum error of an element of `cs` at index
      `from` or later that lies outside the enum. */
  predicate ErrorsSound(es: seq<ValidationError>, cs: seq<string>, from: nat)
  {
    forall k :: 0 <= k < |es| ==>
      && es[k].element.Some?
      && from <= es[k].element.value < |cs|
      && !IsCareer(cs[es[k].element.value])
      && es[k] == ElementError(cs, es[k].element.value)
  }

  lemma {:induction false} ElementErrorsSound(cs: seq<string>, from: nat)
    requires from <= |cs|
    ensures ErrorsSound(ElementErrors(cs, from), cs, from)
    decreases |cs| - from
  {
    if from < |cs| {
      ElementErrorsSound(cs, from + 1);
      var head := if IsCareer(cs[from]) then [] else [ElementError(cs, from)];
      assert ElementErrors(cs, from) == head + ElementErrors(cs, from + 1);
      SoundAfter(head, ElementErrors(cs, from + 1), cs, from);
    }
  }

  /** The error of element `from`, when it has one, followed by sound errors
      from `from + 1` on, are sound errors from `from` on. */
  lemma SoundAfter(head: seq<ValidationError>, rest: seq<ValidationError>, cs: seq<string>, from: nat)
    requires from < |cs|
    requires head == if IsCareer(cs[from]) then [] else [ElementError(cs, from)]
    requires ErrorsSound(rest, cs, from + 1)
    ensures ErrorsSound(head + rest, cs, from)
  {
    var r := head + rest;
    forall k | 0 <= k < |r|
      ensures r[k].element.Some? && from <= r[k].element.value < |cs|
      ensures !IsCareer(cs[r[k].element.value]) && r[k] == ElementError(cs, r[k].element.value)
    {
      if k >= |head| {
        assert r[k] == rest[k - |head|];
      }
    }
  }

  lemma {:induction false} ElementErrorsComplete(cs: seq<string>, from: nat)
    requires from <= |cs|
    ensures forall i :: from <= i < |cs| && !IsCareer(cs[i]) ==> ElementError(cs, i) in ElementErrors(cs, from)
    decreases |cs| - from
  {
    if from < |cs| {
      ElementErrorsComplete(cs, from + 1);
      var rest := ElementErrors(cs, from + 1);
      var r := ElementErrors(cs, from);
      var h := if IsCareer(cs[from]) then 0 else 1;
      assert r[h..] == rest;
      forall i | from <= i < |cs| && !IsCareer(cs[i])
        ensures ElementError(cs, i) in r
      {
        if i > from {
          assert ElementError(cs, i) in r[h..];
        } else {
          assert r[0] == ElementError(cs, i);
        }
      }
    }
  }

  lemma {:induction false} ElementErrorsOrdered(cs: seq<string>, from: nat)
    requires from <= |cs|
    ensures forall k :: 0 <= k < |ElementErrors(cs, from)| ==>
      ElementErrors(cs, from)[k].element.Some? && from <= ElementErrors(cs, from)[k].element.value
    ensures forall k, l :: 0 <= k < l < |ElementErrors(cs, from)| ==>
      ElementErrors(cs, from)[k].element.value < ElementErrors(cs, from)[l].element.value
    decreases |cs| - from
  {
    if from < |cs| {
      ElementErrorsOrdered(cs, from + 1);
      var head := if IsCareer(cs[from]) then [] else [ElementError(cs, from)];
      var rest := ElementErrors(cs, from + 1);
      var r := ElementErrors(cs, from);
      assert r == head + rest;
      assert forall e :: e in head ==> e.element == Some(from);
      IndicesAfter(head, rest, from);
    }
  }

  /** A list of errors at index `from` followed by a list ordered by index
      and past `from` is ordered by index and at or past `from`. */
  lemma IndicesAfter(head: seq<ValidationError>, rest: seq<ValidationError>, from: nat)
    requires |head| <= 1
    requires forall e :: e in head ==> e.element == Some(from)
    requires forall k :: 0 <= k < |rest| ==> rest[k].element.Some? && from + 1 <= rest[k].element.value
    requires forall k, l :: 0 <= k < l < |rest| ==> rest[k].element.value < rest[l].element.value
    ensures forall k :: 0 <= k < |head + rest| ==>
      (head + rest)[k].element.Some? && from <= (head + rest)[k].element.value
    ensures forall k, l :: 0 <= k < l < |head + rest| ==>
      (head + rest)[k].element.value < (head + rest)[l].element.value
  {
    var r := head + rest;
    forall k | 0 <= k < |r|
      ensures r[k].element.Some? && from <= r[k].element.value
    {
      if k < |head| {
        assert r[k] in head;
      }
    }
  }

  /** The validated paths in the order the schema declares them. */
  const SchemaPaths: seq<Path> :=
    [NamePath, DescriptionPath, PhonePath, AddressPath, LocationTypePath, CareersPath, RatingPath]

  predicate HasErrorFor(r: seq<ValidationError>, p: Path) {
    exists i :: 0 <= i < |r| && r[i].path == p
  }

  /** The errors of the listed paths, in the listed order. */
  function ErrorsFor(b: Bootcamp, ps: seq<Path>): (r: seq<ValidationError>)
    ensures forall p :: HasErrorFor(r, p) <==> p in ps && !PathValid(b, p)
    ensures forall i :: 0 <= i < |r| ==> Breaks(b, r[i].path, r[i].rule)
  {
    if |ps| == 0 then []
    else
      var head := PathErrors(b, ps[0]);
      var rest := ErrorsFor(b, ps[1..]);
      HasErrorForConcat(head, rest);
      HasErrorForPath(b, ps[0]);
      head + rest
  }

  lemma HasErrorForConcat(x: seq<ValidationError>, y: seq<ValidationError>)
    ensures forall p :: HasErrorFor(x + y, p) <==> HasErrorFor(x, p) || HasErrorFor(y, p)
  {
    forall p ensures HasErrorFor(x + y, p) <==> HasErrorFor(x, p) || HasErrorFor(y, p) {
      if HasErrorFor(x + y, p) {
        var i :| 0 <= i < |x + y| && (x + y)[i].path == p;
        if i >= |x| {
          assert y[i - |x|].path == p;
        }
      }
      if HasErrorFor(y, p) {
        var i :| 0 <= i < |y| && y[i].path == p;
        assert (x + y)[i + |x|].path == p;
      }
      if HasErrorFor(x, p) {
        var i :| 0 <= i < |x| && x[i].path == p;
        assert (x + y)[i].path == p;
      }
    }
  }

  lemma HasErrorForPath(b: Bootcamp, q: Path)
    ensures forall p :: HasErrorFor(PathErrors(b, q), p) <==> p == q && !PathValid(b, p)
  {
    var e := PathErrors(b, q);
    if !PathValid(b, q) {
      assert e[0].path == q;
    }
  }

  lemma SchemaPathsComplete()
    ensures forall p :: p in SchemaPaths
  {
    forall p ensures p in SchemaPaths {
      match p
      case NamePath => assert SchemaPaths[0] == p;
      case DescriptionPath => assert SchemaPaths[1] == p;
      case PhonePath => assert SchemaPaths[2] == p;
      case AddressPath => assert SchemaPaths[3] == p;
      case LocationTypePath => assert SchemaPaths[4] == p;
      case CareersPath => assert SchemaPaths[5] == p;
      case RatingPath => assert SchemaPaths[6] == p;
    }
  }

  /** The validation errors of a document, in the schema's path order: one
      for each path whose rules fail, and none when the document is valid. */
  function Validate(b: Bootcamp): (r: seq<ValidationError>)
    ensures forall p :: !PathValid(b, p) <==> HasErrorFor(r, p)
    ensures r == [] <==> Valid(b)
    ensures forall i :: 0 <= i < |r| ==> Breaks(b, r[i].path, r[i].rule)
  {
    SchemaPathsComplete();
    var r := ErrorsFor(b, SchemaPaths);
    assert r != [] ==> HasErrorFor(r, r[0].path);
    r
  }

  // ------------------------------------------------------ setters, defaults

  /** The setters Mongoose applies when a value is assigned: `trim` on `name`. */
  function Cast(b: Bootcamp): (c: Bootcamp)
    ensures c.name.Some? <==> b.name.Some?
    ensures c.name.Some? ==> c.name.value == Trim(b.name.value)
    ensures c.(name := b.name) == b
  {
    b.(name := if b.name.Some? then Some(Trim(b.name.value)) else None)
  }

  /** The `name` rules hold of a cast document exactly when the trimmed name
      is non-empty and at most 50 characters long. */
  lemma CastName(b: Bootcamp)
    ensures PathValid(Cast(b), NamePath) <==>
      b.name.Some? && Trim(b.name.value) != "" && |Trim(b.name.value)| <= NameMaxLength
  {
  }

  lemma CastIdempotent(b: Bootcamp)
    ensures Cast(Cast(b)) == Cast(b)
  {
    if b.name.Some? {
      TrimIdempotent(b.name.value);
    }
  }

  /** The schema defaults, applied to unset paths when a document is built.
      `careers`, an array path, gets Mongoose's implicit default, the empty
      list.
      `jobAssistance` declares `defaul: false`, which Mongoose ignores, so it
      gets no default. `createdAt` defaults to `new Date()` evaluated once when
      the schema is defined, so every document gets the same instant,
      `schemaLoadTime`, rather than its creation time. */
  function ApplyDefaults(b: Bootcamp, schemaLoadTime: int): (d: Bootcamp)
    ensures d.photo.Some? && d.housing.Some? && d.jobGuarantee.Some? && d.acceptGi.Some? && d.createdAt.Some?
    ensures d.careers.Some?
    ensures b.careers.None? ==> d.careers == Some([])
    ensures b.photo.None? ==> d.photo == Some(DefaultPhoto)
    ensures b.housing.None? ==> d.housing == Some(false)
    ensures b.jobGuarantee.None? ==> d.jobGuarantee == Some(false)
    ensures b.acceptGi.None? ==> d.acceptGi == Some(false)
    ensures b.createdAt.None? ==> d.createdAt == Some(schemaLoadTime)
    ensures b.careers.Some? ==> d.careers == b.careers
    ensures b.photo.Some? ==> d.photo == b.photo
    ensures b.housing.Some? ==> d.housing == b.housing
    ensures b.jobGuarantee.Some? ==> d.jobGuarantee == b.jobGuarantee
    ensures b.acceptGi.Some? ==> d.acceptGi == b.acceptGi
    ensures b.createdAt.Some? ==> d.createdAt == b.createdAt
    ensures d.jobAssistance == b.jobAssistance
    ensures d.(photo := b.photo, housing := b.housing, jobGuarantee := b.jobGuarantee,
               acceptGi := b.acceptGi, createdAt := b.createdAt, careers := b.careers) == b
  {
    b.(careers := Some(b.careers.GetOr([])),
       photo := Some(b.photo.GetOr(DefaultPhoto)),
       housing := Some(b.housing.GetOr(false)),
       jobGuarantee := Some(b.jobGuarantee.GetOr(false)),
       acceptGi := Some(b.acceptGi.GetOr(false)),
       createdAt := Some(b.createdAt.GetOr(schemaLoadTime)))
  }

  /** Defaults never change whether a path other than `careers` is valid: no
      defaulted path has a validator. `careers` becomes valid when unset,
      since the empty list passes both its rules. */
  lemma DefaultsKeepValidity(b: Bootcamp, schemaLoadTime: int)
    ensures forall p :: p != CareersPath ==> (PathValid(ApplyDefaults(b, schemaLoadTime), p) <==> PathValid(b, p))
    ensures PathValid(ApplyDefaults(b, schemaLoadTime), CareersPath) <==> b.careers.None? || PathValid(b, CareersPath)
    ensures Valid(ApplyDefaults(b, schemaLoadTime)) <==>
      (forall p :: p != CareersPath ==> PathValid(b, p)) && (b.careers.None? || PathValid(b, CareersPath))
  {
    var d := ApplyDefaults(b, schemaLoadTime);
    assert d.name == b.name && d.description == b.description && d.phone == b.phone;
    assert d.address == b.address && d.location == b.location;
    assert d.averageRating == b.averageRating;
  }

  /** Applying the defaults to a document that already has them changes nothing. */
  lemma DefaultsIdempotent(b: Bootcamp, t1: int, t2: int)
    ensures ApplyDefaults(ApplyDefaults(b, t1), t2) == ApplyDefaults(b, t1)
  {
  }

  /** Two documents built without `createdAt` get the same creation instant,
      however far apart they were created. */
  lemma CreatedAtIsShared(b1: Bootcamp, b2: Bootcamp, schemaLoadTime: int)
    requires b1.createdAt.None? && b2.createdAt.None?
    ensures ApplyDefaults(b1, schemaLoadTime).createdAt == ApplyDefaults(b2, schemaLoadTime).createdAt
  {
  }

  /** The document Mongoose builds from a request body: setters, then defaults. */
  function Build(body: Bootcamp, schemaLoadTime: int): Bootcamp
  {
    ApplyDefaults(Cast(body), schemaLoadTime)
  }
}

=== FILE: bootcamps_controller.dfy ===
/** The bootcamp handlers: `getBootcamps`, which repeats the list-query
    pipeline inline with `courses` always populated, and the single-record
    handlers `getBootcamp`, `createBootcamp`, `updateBootcamp` and
    `deleteBootcamp` over a store that maps ids to documents. */
module BootcampsController {
  import opened Outcomes
  import opened JsText
  import opened QueryParams
  import opened OperatorRewrite
  import opened AdvancedResults
  import opened BootcampModel

  const CoursesPath: string := "courses"
  const OkStatus: int := 200
  const CreatedStatus: int := 201
  const NotFoundStatus: int := 404

  // ------------------------------------------------------------ getBootcamps

  /** The status and body `getBootcamps` sends. */
  datatype Listing<R> = Listing(status: int, body: Response<R>)

  /** A parameter JavaScript treats as true: set and not the empty string. */
  predicate Truthy(v: Option<Value>) {
    v.Some? && v.value != Str("")
  }

  /** `getBootcamps`, step by step as the handler writes it. A failure is what
      the handler's promise rejects with, which `asyncHandler` hands on to
      the error middleware. */
  function GetBootcamps<R>(q: Query, collection: seq<R>, find: StoreQuery -> seq<R>): (r: Result<Listing<R>, Failure>)
    ensures r.Err? <==>
      || (Truthy(Lookup(q, SelectKey)) && !Lookup(q, SelectKey).value.Str?)
      || (Truthy(Lookup(q, SortKey)) && !Lookup(q, SortKey).value.Str?)
      || (Lookup(q, PageKey).Some? && NoPrimitive(Lookup(q, PageKey).value))
      || (Lookup(q, LimitKey).Some? && NoPrimitive(Lookup(q, LimitKey).value))
      || (ParsedOr(Lookup(q, PageKey), 1).value - 1) * ParsedOr(Lookup(q, LimitKey), 100).value < 0
    ensures r.Ok? ==> r.value.status == OkStatus && r.value.body.success
    ensures r.Ok? ==> r.value.body.count == |r.value.body.data|
  {
    var select := Lookup(q, SelectKey);
    var sort := Lookup(q, SortKey);
    if Truthy(select) && !select.value.Str? then Err(NotSplittable(SelectKey))
    else if Truthy(sort) && !sort.value.Str? then Err(NotSplittable(SortKey))
    else
      match ParsedOr(Lookup(q, PageKey), 1)
      case None => Err(NotConvertible(PageKey))
      case Some(page) =>
        match ParsedOr(Lookup(q, LimitKey), 100)
        case None => Err(NotConvertible(LimitKey))
        case Some(limit) => ListPage(page, limit, |collection|, find(ListQuery(q)))
  }

  /** The query `getBootcamps` builds, with `select` and `sort` applied when
      they are truthy strings. */
  function ListQuery(q: Query): StoreQuery
  {
    var reqQuery := DeleteEach(q, ControlKeys);
    var queryStr := RewriteOperators(Stringify(Obj(reqQuery)));
    var select := Lookup(q, SelectKey);
    var sort := Lookup(q, SortKey);
    var fields := if Truthy(select) && select.value.Str? then Some(Join(Split(select.value.s, ','), " ")) else None;
    var sortBy := if Truthy(sort) && sort.value.Str? then Join(Split(sort.value.s, ','), " ") else DefaultSort;
    StoreQuery(queryStr, fields, sortBy, Some(CoursesPath))
  }

  /** The end of `getBootcamps` once the query is built: skip and limit,
      the pagination object, and the body sent with status 200. */
  function ListPage<R>(page: int, limit: int, total: nat, found: seq<R>): (r: Result<Listing<R>, Failure>)
    ensures r.Err? <==> (page - 1) * limit < 0
    ensures r.Ok? ==> r.value.status == OkStatus && r.value.body.success
    ensures r.Ok? ==> r.value.body.count == |r.value.body.data|
  {
    var startIndex := (page - 1) * limit;
    var endIndex := page * limit;
    match Window(found, startIndex, limit)
    case Err(e) => Err(e)
    case Ok(bootcamps) =>
      var pagination := Pagination(
        if endIndex < total then Some(PageRef(page + 1, limit)) else None,
        if startIndex > 0 then Some(PageRef(page - 1, limit)) else None);
      Ok(Listing(OkStatus, Response(true, |bootcamps|, pagination, bootcamps)))
  }

  /** `parseInt(v, 10) || d`, as `getBootcamps` writes it: the same value
      the middleware computes. */
  function ParsedOr(v: Option<Value>, d: int): (n: Option<int>)
    ensures n == IntParamOr(v, d)
    ensures n.None? <==> v.Some? && NoPrimitive(v.value)
  {
    JsStringSpec(v);
    match JsString(v)
    case None => None
    case Some(text) =>
      match ParseInt(text)
      case Some(n) => if n != 0 then Some(n) else Some(d)
      case None => Some(d)
  }

  /** The handler and the shared middleware, given `courses` to populate,
      produce the same outcome on every query and every store: the same
      failure, or the same body sent with status 200. */
  lemma GetBootcampsIsAdvancedResults<R>(q: Query, collection: seq<R>, find: StoreQuery -> seq<R>)
    ensures GetBootcamps(q, collection, find) ==
      match Run(q, Some(CoursesPath), collection, find)
      case Ok(body) => Ok(Listing(OkStatus, body))
      case Err(e) => Err(e)
  {
    if SelectFields(q).Ok? && SortOrder(q).Ok? && PageNumber(q).Ok? && PageLimit(q).Ok? {
      ListQueryIsBuildQuery(q);
      ListPageIsRespond(PageNumber(q).value, PageLimit(q).value, |collection|, Found(q, Some(CoursesPath), find));
    }
  }

  /** The handler builds the query the middleware builds. */
  lemma ListQueryIsBuildQuery(q: Query)
    requires SelectFields(q).Ok? && SortOrder(q).Ok?
    ensures ListQuery(q) == BuildQuery(q, SelectFields(q).value, SortOrder(q).value, PopulateIfSet(Some(CoursesPath)))
  {
    var select, sort := Lookup(q, SelectKey), Lookup(q, SortKey);
    if Truthy(select) {
      assert CommasToSpaces(select.value.s) == Join(Split(select.value.s, ','), " ");
    }
    if Truthy(sort) {
      assert CommasToSpaces(sort.value.s) == Join(Split(sort.value.s, ','), " ");
    }
  }

  /** The handler's last step agrees with the middleware's. */
  lemma ListPageIsRespond<R>(page: int, limit: int, total: nat, found: seq<R>)
    ensures ListPage(page, limit, total, found) ==
      match Respond(page, limit, total, found)
      case Ok(body) => Ok(Listing(OkStatus, body))
      case Err(e) => Err(e)
  {
  }

  // ------------------------------------------------------------------ store

  type Id = string

  /** The bootcamps collection, by document id. */
  type Store = map<Id, Bootcamp>

  /** A name already held by a document of the store other than `except`. */
  predicate NameTaken(db: Store, name: string, except: Option<Id>) {
    exists k :: k in db && Some(k) != except && db[k].name == Some(name)
  }

  /** What the schema and its unique index keep true of the collection:
      every document passes validation, and no two documents share a name. */
  predicate Consistent(db: Store) {
    && (forall k :: k in db ==> Valid(db[k]))
    && (forall k1, k2 :: k1 in db && k2 in db && db[k1].name == db[k2].name ==> k1 == k2)
  }

  /** `new ErrorResponse(message, statusCode)`. */
  datatype ErrorResponse = ErrorResponse(message: string, statusCode: int)

  /** Why a single-record handler fails. */
  datatype ApiError =
    | NotFound(response: ErrorResponse)
    | Rejected(errors: seq<ValidationError>) // Mongoose's ValidationError
    | DuplicateKey(key: string)               // the store's duplicate key error

  /** `{ success: true, data }` with its status. */
  datatype Reply<T> = Reply(status: int, success: bool, data: T)

  /** The `{}` that `deleteBootcamp` sends as its data. */
  datatype Empty = Empty

  function NotFoundMessage(id: Id): (m: string)
    ensures |m| > |id| && m[|m| - |id|..] == id
  {
    "Bootcamp not found with id of " + id
  }

  /** The error every single-record handler passes on for an unknown id. */
  function NotFoundError(id: Id): (e: ApiError)
    ensures e.NotFound? && e.response.statusCode == NotFoundStatus
    ensures e.response.message == NotFoundMessage(id)
  {
    NotFound(ErrorResponse(NotFoundMessage(id), NotFoundStatus))
  }

  // ------------------------------------------------------------ getBootcamp

  function GetBootcamp(db: Store, id: Id): (r: Result<Reply<Bootcamp>, ApiError>)
    ensures r.Err? <==> id !in db
    ensures r.Err? ==> r.error == NotFoundError(id)
    ensures r.Ok? ==> r.value.status == OkStatus && r.value.success && r.value.data == db[id]
  {
    if id !in db then Err(NotFoundError(id))
    else Ok(Reply(OkStatus, true, db[id]))
  }

  // --------------------------------------------------------- createBootcamp

  /** `Bootcamp.create(body)`: the setters and defaults, then the schema's
      validators, then the unique indexes on `_id` and `name`. The store
      chooses `newId`; `schemaLoadTime` is the instant the schema's
      `createdAt` default was computed. */
  function CreateBootcamp(db: Store, body: Bootcamp, newId: Id, schemaLoadTime: int)
    : (r: (Result<Reply<Bootcamp>, ApiError>, Store))
    ensures r.0.Ok? <==>
      && Valid(Build(body, schemaLoadTime))
      && newId !in db
      && Build(body, schemaLoadTime).name.Some?
      && !NameTaken(db, Build(body, schemaLoadTime).name.value, None)
    ensures r.0.Err? ==> r.1 == db
    ensures r.0.Ok? ==>
      && r.0.value.status == CreatedStatus && r.0.value.success
      && r.0.value.data == Build(body, schemaLoadTime)
      && r.1 == db[newId := r.0.value.data]
    ensures r.0.Err? && r.0.error.Rejected? ==> r.0.error.errors == Validate(Build(body, schemaLoadTime))
  {
    var doc := Build(body, schemaLoadTime);
    var errors := Validate(doc);
    if errors != [] then (Err(Rejected(errors)), db)
    else Insert(db, newId, doc)
  }

  /** The store's side of `create` for a validated document: the unique
      indexes on `_id` and on `name`, then the insertion. */
  function Insert(db: Store, newId: Id, doc: Bootcamp): (r: (Result<Reply<Bootcamp>, ApiError>, Store))
    requires doc.name.Some?
    ensures r.0.Ok? <==> newId !in db && !NameTaken(db, doc.name.value, None)
    ensures r.0.Err? ==> r.1 == db && r.0.error.DuplicateKey?
    ensures r.0.Ok? ==>
      && r.0.value == Reply(CreatedStatus, true, doc)
      && r.1.Keys == db.Keys + {newId}
      && r.1[newId] == doc
      && (forall k :: k in db ==> r.1[k] == db[k])
  {
    if newId in db then (Err(DuplicateKey("_id")), db)
    else if NameTaken(db, doc.name.value, None) then (Err(DuplicateKey("name")), db)
    else (Ok(Reply(CreatedStatus, true, doc)), db[newId := doc])
  }

  // --------------------------------------------------------- updateBootcamp

  /** A path the update sets. */
  predicate IsSet(b: Bootcamp, p: Path) {
    match p
    case NamePath => b.name.Some?
    case DescriptionPath => b.description.Some?
    case PhonePath => b.phone.Some?
    case AddressPath => b.address.Some?
    case LocationTypePath => b.location.Some?
    case CareersPath => b.careers.Some?
    case RatingPath => b.averageRating.Some?
  }

  /** The validated paths an update sets, in schema order. */
  function SetPaths(patch: Bootcamp, ps: seq<Path>): (r: seq<Path>)
    ensures forall p :: p in r <==> p in ps && IsSet(patch, p)
  {
    if |ps| == 0 then []
    else if IsSet(patch, ps[0]) then [ps[0]] + SetPaths(patch, ps[1..])
    else SetPaths(patch, ps[1..])
  }

  /** Update validators (`runValidators: true`): the rules of the paths the
      update sets, checked against the update alone. */
  function UpdateErrors(patch: Bootcamp): (r: seq<ValidationError>)
    ensures forall p :: HasErrorFor(r, p) <==> IsSet(patch, p) && !PathValid(patch, p)
  {
    SchemaPathsComplete();
    ErrorsFor(patch, SetPaths(patch, SchemaPaths))
  }

  /** The document after the update: every path the update sets takes the
      update's value; the others keep theirs. No default is applied. */
  function Merge(b: Bootcamp, patch: Bootcamp): (m: Bootcamp)
    ensures forall p :: IsSet(patch, p) ==> PathValid(m, p) == PathValid(patch, p)
    ensures forall p :: !IsSet(patch, p) ==> PathValid(m, p) == PathValid(b, p)
    ensures Overrides(patch.name, b.name, m.name)
    ensures Overrides(patch.slug, b.slug, m.slug)
    ensures Overrides(patch.description, b.description, m.description)
    ensures Overrides(patch.website, b.website, m.website)
    ensures Overrides(patch.phone, b.phone, m.phone)
    ensures Overrides(patch.email, b.email, m.email)
    ensures Overrides(patch.address, b.address, m.address)
    ensures Overrides(patch.location, b.location, m.location)
    ensures Overrides(patch.careers, b.careers, m.careers)
    ensures Overrides(patch.averageRating, b.averageRating, m.averageRating)
    ensures Overrides(patch.averageCost, b.averageCost, m.averageCost)
    ensures Overrides(patch.photo, b.photo, m.photo)
    ensures Overrides(patch.housing, b.housing, m.housing)
    ensures Overrides(patch.jobAssistance, b.jobAssistance, m.jobAssistance)
    ensures Overrides(patch.jobGuarantee, b.jobGuarantee, m.jobGuarantee)
    ensures Overrides(patch.acceptGi, b.acceptGi, m.acceptGi)
    ensures Overrides(patch.createdAt, b.createdAt, m.createdAt)
  {
    Bootcamp(
      Or(patch.name, b.name), Or(patch.slug, b.slug), Or(patch.description, b.description),
      Or(patch.website, b.website), Or(patch.phone, b.phone), Or(patch.email, b.email),
      Or(patch.address, b.address), Or(patch.location, b.location), Or(patch.careers, b.careers),
      Or(patch.averageRating, b.averageRating), Or(patch.averageCost, b.averageCost),
      Or(patch.photo, b.photo), Or(patch.housing, b.housing), Or(patch.jobAssistance, b.jobAssistance),
      Or(patch.jobGuarantee, b.jobGuarantee), Or(patch.acceptGi, b.acceptGi),
      Or(patch.createdAt, b.createdAt))
  }

  /** `r` is the update's value `x` when the update sets it, and the
      document's value `y` otherwise. */
  predicate Overrides<T(==)>(x: Option<T>, y: Option<T>, r: Option<T>) {
    (x.Some? ==> r == x) && (x.None? ==> r == y)
  }

  /** The update's value when it sets the path, the document's otherwise. */
  function Or<T>(x: Option<T>, y: Option<T>): (r: Option<T>)
    ensures x.Some? ==> r == x
    ensures x.None? ==> r == y
  {
    if x.Some? then x else y
  }

  /** `findByIdAndUpdate(id, body, { new: true, runValidators: true })`:
      the setters run on the update, the update validators run before the
      store is read, an unknown id gives the 404 error, and a name held by
      another document trips the unique index. */
  function UpdateBootcamp(db: Store, id: Id, body: Bootcamp): (r: (Result<Reply<Bootcamp>, ApiError>, Store))
    ensures r.0.Err? ==> r.1 == db
    ensures UpdateErrors(Cast(body)) != [] ==> r.0 == Err(Rejected(UpdateErrors(Cast(body))))
    ensures UpdateErrors(Cast(body)) == [] && id !in db ==> r.0 == Err(NotFoundError(id))
    ensures r.0.Ok? <==>
      && UpdateErrors(Cast(body)) == [] && id in db
      && (Cast(body).name.None? || !NameTaken(db, Cast(body).name.value, Some(id)))
    ensures r.0.Ok? ==>
      && r.0.value.status == OkStatus && r.0.value.success
      && r.1.Keys == db.Keys
      && r.1[id] == r.0.value.data == Merge(db[id], Cast(body))
      && (forall k :: k in db && k != id ==> r.1[k] == db[k])
  {
    var patch := Cast(body);
    var errors := UpdateErrors(patch);
    if errors != [] then (Err(Rejected(errors)), db)
    else if id !in db then (Err(NotFoundError(id)), db)
    else if patch.name.Some? && NameTaken(db, patch.name.value, Some(id)) then (Err(DuplicateKey("name")), db)
    else
      var updated := Merge(db[id], patch);
      (Ok(Reply(OkStatus, true, updated)), db[id := updated])
  }

  // --------------------------------------------------------- deleteBootcamp

  function DeleteBootcamp(db: Store, id: Id): (r: (Result<Reply<Empty>, ApiError>, Store))
    ensures r.0.Err? <==> id !in db
    ensures r.0.Err? ==> r.0.error == NotFoundError(id) && r.1 == db
    ensures r.0.Ok? ==> r.0.value == Reply(OkStatus, true, Empty)
    ensures r.1.Keys == db.Keys - {id}
    ensures forall k :: k in r.1 ==> r.1[k] == db[k]
  {
    if id !in db then (Err(NotFoundError(id)), db)
    else (Ok(Reply(OkStatus, true, Empty)), db - {id})
  }

  // ------------------------------------------------------------- properties

  /** For an id the store does not hold, reading and deleting give the 404
      error, and so does updating once the update passes validation; none of
      the three changes the store. */
  lemma UnknownIdIsNotFound(db: Store, id: Id, body: Bootcamp)
    requires id !in db
    ensures GetBootcamp(db, id) == Err(NotFoundError(id))
    ensures DeleteBootcamp(db, id) == (Err(NotFoundError(id)), db)
    ensures UpdateBootcamp(db, id, body).1 == db
    ensures UpdateBootcamp(db, id, body).0.Err?
    ensures UpdateErrors(Cast(body)) == [] ==> UpdateBootcamp(db, id, body).0 == Err(NotFoundError(id))
  {
  }

  /** Creating keeps the store consistent, and the new document holds a
      trimmed name. */
  lemma {:induction false} CreateKeepsConsistent(db: Store, body: Bootcamp, newId: Id, schemaLoadTime: int)
    requires Consistent(db)
    ensures Consistent(CreateBootcamp(db, body, newId, schemaLoadTime).1)
    ensures var r := CreateBootcamp(db, body, newId, schemaLoadTime).0;
      r.Ok? ==> r.value.data.name == Some(Trim(body.name.value))
  {
    var r := CreateBootcamp(db, body, newId, schemaLoadTime);
    if r.0.Ok? {
      var doc := Build(body, schemaLoadTime);
      var db' := r.1;
      assert Valid(doc);
      forall k1, k2 | k1 in db' && k2 in db' && db'[k1].name == db'[k2].name
        ensures k1 == k2
      {
      }
    }
  }

  /** Updating keeps the store consistent: the paths the update sets pass
      their rules, the others are as they were, and the new name is free. */
  lemma {:induction false} UpdateKeepsConsistent(db: Store, id: Id, body: Bootcamp)
    requires Consistent(db)
    ensures Consistent(UpdateBootcamp(db, id, body).1)
  {
    var r := UpdateBootcamp(db, id, body);
    if r.0.Ok? {
      var patch := Cast(body);
      var m := Merge(db[id], patch);
      var db' := r.1;
      forall p ensures PathValid(m, p) {
        if IsSet(patch, p) {
          assert !HasErrorFor(UpdateErrors(patch), p);
        } else {
          assert Valid(db[id]);
        }
      }
      forall k1, k2 | k1 in db' && k2 in db' && db'[k1].name == db'[k2].name
        ensures k1 == k2
      {
        if patch.name.Some? {
          if k1 == id && k2 != id {
            assert db[k2].name == Some(patch.name.value);
          }
        }
      }
    }
  }

  lemma DeleteKeepsConsistent(db: Store, id: Id)
    requires Consistent(db)
    ensures Consistent(DeleteBootcamp(db, id).1)
  {
  }

  /** A created document reads back as it was sent. */
  lemma GetAfterCreate(db: Store, body: Bootcamp, newId: Id, schemaLoadTime: int)
    requires CreateBootcamp(db, body, newId, schemaLoadTime).0.Ok?
    ensures var (r, db') := CreateBootcamp(db, body, newId, schemaLoadTime);
      GetBootcamp(db', newId) == Ok(Reply(OkStatus, true, r.value.data))
  {
  }

  /** A deleted document is gone: reading it gives the 404 error. */
  lemma GetAfterDelete(db: Store, id: Id)
    ensures GetBootcamp(DeleteBootcamp(db, id).1, id) == Err(NotFoundError(id))
  {
  }

  /** An update that passes reads back as the merged document, and a second,
      identical update changes nothing further. */
  lemma {:induction false} UpdateTwice(db: Store, id: Id, body: Bootcamp)
    requires UpdateBootcamp(db, id, body).0.Ok?
    ensures var db' := UpdateBootcamp(db, id, body).1;
      && GetBootcamp(db', id) == UpdateBootcamp(db, id, body).0
      && UpdateBootcamp(db', id, body) == UpdateBootcamp(db, id, body)
  {
    var patch := Cast(body);
    var db' := UpdateBootcamp(db, id, body).1;
    var m := Merge(db[id], patch);
    assert Merge(m, patch) == m;
    assert db'[id := m] == db';
  }
}

=== FILE: jstext.dfy ===
/** The pieces of JavaScript's string semantics that the query layer and the
    schema rely on: regular-expression word characters, the white space that
    `trim` and `parseInt` skip, `split`/`join` with a one-character separator,
    and `parseInt(s, 10)`. */
module JsText {
  import opened Outcomes

  /** `\w` of a JavaScript regular expression without the `u` flag. */
  predicate IsWordChar(c: char) {
    ('a' <= c <= 'z') || ('A' <= c <= 'Z') || ('0' <= c <= '9') || c == '_'
  }

  predicate IsDigit(c: char) {
    '0' <= c <= '9'
  }

  /** ECMAScript StrWhiteSpaceChar: the WhiteSpace code points (tab, vertical
      tab, form feed, space, no-break space, byte order mark and the Zs
      category) and the LineTerminator code points. */
  predicate IsJsSpace(c: char) {
    || c == '\t' || c == '\n' || c == '\U{000B}' || c == '\U{000C}' || c == '\r'
    || c == ' ' || c == '\U{00A0}' || c == '\U{1680}'
    || ('\U{2000}' <= c <= '\U{200A}')
    || c == '\U{2028}' || c == '\U{2029}' || c == '\U{202F}' || c == '\U{205F}'
    || c == '\U{3000}' || c == '\U{FEFF}'
  }

  // ---------------------------------------------------------------- trimming

  /** Text made only of white space (the empty text included). */
  predicate AllSpace(t: string) {
    forall k :: 0 <= k < |t| ==> IsJsSpace(t[k])
  }

  /** Drops the leading white space, as `parseInt` and `trimStart` do. */
  function TrimStart(s: string): (r: string)
    ensures |r| <= |s|
  {
    if |s| > 0 && IsJsSpace(s[0]) then TrimStart(s[1..]) else s
  }

  /** What `TrimStart` keeps is a suffix that starts with no white space, and
      what it drops is all white space. */
  lemma {:induction false} TrimStartSpec(s: string)
    ensures var r := TrimStart(s);
      && r == s[|s| - |r|..]
      && (r == [] || !IsJsSpace(r[0]))
      && AllSpace(s[..|s| - |r|])
  {
    if |s| > 0 && IsJsSpace(s[0]) {
      TrimStartSpec(s[1..]);
      var r := TrimStart(s);
      assert s[..|s| - |r|] == [s[0]] + s[1..][..|s| - 1 - |r|];
    }
  }

  /** Drops the trailing white space. */
  function TrimEnd(s: string): (r: string)
    ensures |r| <= |s|
  {
    if |s| > 0 && IsJsSpace(s[|s| - 1]) then TrimEnd(s[..|s| - 1]) else s
  }

  /** What `TrimEnd` keeps is a prefix that ends with no white space, and
      what it drops is all white space. */
  lemma {:induction false} TrimEndSpec(s: string)
    ensures var r := TrimEnd(s);
      && r == s[..|r|]
      && (r == [] || !IsJsSpace(r[|r| - 1]))
      && AllSpace(s[|r|..])
  {
    if |s| > 0 && IsJsSpace(s[|s| - 1]) {
      TrimEndSpec(s[..|s| - 1]);
      var r := TrimEnd(s);
      assert s[|r|..] == s[..|s| - 1][|r|..] + [s[|s| - 1]];
    }
  }

  /** `String.prototype.trim`, which Mongoose's `trim: true` setter applies. */
  function Trim(s: string): (r: string)
  {
    TrimEnd(TrimStart(s))
  }

  /** The trimmed string is an infix of the input with no white space at
      either end, everything cut away on either side is white space, and it is
      empty exactly when the input is all white space. */
  lemma TrimCharacterised(s: string)
    ensures var i := |s| - |TrimStart(s)|;
      && i + |Trim(s)| <= |s| && Trim(s) == s[i..i + |Trim(s)|]
      && AllSpace(s[..i]) && AllSpace(s[i + |Trim(s)|..])
    ensures Trim(s) == [] || (!IsJsSpace(Trim(s)[0]) && !IsJsSpace(Trim(s)[|Trim(s)| - 1]))
    ensures Trim(s) == [] <==> AllSpace(s)
  {
    TrimInfix(s);
    TrimEnds(s);
    TrimEmpty(s);
  }

  lemma TrimInfix(s: string)
    ensures var i := |s| - |TrimStart(s)|;
      && i + |Trim(s)| <= |s| && Trim(s) == s[i..i + |Trim(s)|]
      && AllSpace(s[..i]) && AllSpace(s[i + |Trim(s)|..])
  {
    var a := TrimStart(s);
    TrimStartSpec(s);
    TrimEndSpec(a);
    SpaceAroundInfix(s, a, TrimEnd(a));
  }

  /** A prefix `t` of a suffix `a` of `s`, with only white space after `t`
      in `a`, sits in `s` with only white space after it. */
  lemma SpaceAroundInfix(s: string, a: string, t: string)
    requires |a| <= |s| && a == s[|s| - |a|..]
    requires |t| <= |a| && t == a[..|t|] && AllSpace(a[|t|..])
    ensures var i := |s| - |a|; t == s[i..i + |t|] && AllSpace(s[i + |t|..])
  {
    SliceOfSuffix(s, |s| - |a|, |t|);
  }

  lemma SliceOfSuffix(s: string, i: nat, n: nat)
    requires i + n <= |s|
    ensures s[i..][..n] == s[i..i + n]
    ensures s[i..][n..] == s[i + n..]
  {
  }

  lemma TrimEnds(s: string)
    ensures Trim(s) == [] || (!IsJsSpace(Trim(s)[0]) && !IsJsSpace(Trim(s)[|Trim(s)| - 1]))
  {
    var a := TrimStart(s);
    var t := TrimEnd(a);
    TrimStartSpec(s);
    TrimEndSpec(a);
    if t != [] {
      assert t == a[..|t|];
      assert t[0] == a[0];
    }
  }

  lemma TrimEmpty(s: string)
    ensures Trim(s) == [] <==> AllSpace(s)
  {
    var a := TrimStart(s);
    var i := |s| - |a|;
    var t := TrimEnd(a);
    TrimStartSpec(s);
    TrimEndSpec(a);
    assert s == s[..i] + a;
    if t == [] {
      assert a[0..] == a;
      AllSpaceConcat(s[..i], a);
    } else {
      assert t[0] == a[0] == s[i];
    }
  }

  lemma AllSpaceConcat(x: string, y: string)
    requires AllSpace(x) && AllSpace(y)
    ensures AllSpace(x + y)
  {
    forall k | 0 <= k < |x + y| ensures IsJsSpace((x + y)[k]) {
      if k >= |x| {
        assert (x + y)[k] == y[k - |x|];
      }
    }
  }

  /** Trimming twice changes nothing more. */
  lemma TrimIdempotent(s: string)
    ensures Trim(Trim(s)) == Trim(s)
  {
    var t := Trim(s);
    if t != [] {
      assert !IsJsSpace(t[0]) && !IsJsSpace(t[|t| - 1]) by { TrimCharacterised(s); }
      assert TrimStart(t) == t;
    }
  }

  // --------------------------------------------------------- split and join

  /** `parts.join(sep)`. */
  function Join(parts: seq<string>, sep: string): string
  {
    if |parts| == 0 then ""
    else if |parts| == 1 then parts[0]
    else parts[0] + sep + Join(parts[1..], sep)
  }

  /** `s.split(sep)` for a one-character separator: the pieces between
      separators, including empty ones, and `[""]` for the empty string. */
  function Split(s: string, sep: char): (parts: seq<string>)
    ensures |parts| >= 1
  {
    if |s| == 0 then [""]
    else
      var rest := Split(s[1..], sep);
      if s[0] == sep then [""] + rest
      else [[s[0]] + rest[0]] + rest[1..]
  }

  /** No piece of a split holds the separator, and joining the pieces with it
      gives the input back. */
  lemma SplitSpec(s: string, sep: char)
    ensures forall i :: 0 <= i < |Split(s, sep)| ==> sep !in Split(s, sep)[i]
    ensures Join(Split(s, sep), [sep]) == s
  {
    SplitNoSeparator(s, sep);
    SplitJoin(s, sep);
  }

  lemma {:induction false} SplitNoSeparator(s: string, sep: char)
    ensures forall i :: 0 <= i < |Split(s, sep)| ==> sep !in Split(s, sep)[i]
    decreases |s|
  {
    if |s| > 0 {
      var rest := Split(s[1..], sep);
      SplitNoSeparator(s[1..], sep);
      var parts := Split(s, sep);
      if s[0] == sep {
        assert forall i :: 1 <= i < |parts| ==> parts[i] == rest[i - 1];
      } else {
        assert forall i :: 1 <= i < |parts| ==> parts[i] == rest[i];
        assert sep !in rest[0];
        assert parts[0] == [s[0]] + rest[0];
      }
    }
  }

  lemma {:induction false} SplitJoin(s: string, sep: char)
    ensures Join(Split(s, sep), [sep]) == s
    decreases |s|
  {
    if |s| > 0 {
      var rest := Split(s[1..], sep);
      SplitJoin(s[1..], sep);
      var parts := Split(s, sep);
      if s[0] == sep {
        assert parts[1..] == rest;
      } else if |rest| > 1 {
        var tail := [sep] + Join(rest[1..], [sep]);
        assert parts[1..] == rest[1..];
        ConcatAssoc([s[0]], rest[0], tail);
        ConcatAssoc(rest[0], [sep], Join(rest[1..], [sep]));
        ConcatAssoc(parts[0], [sep], Join(parts[1..], [sep]));
      }
    }
  }

  lemma ConcatAssoc<T>(a: seq<T>, b: seq<T>, c: seq<T>)
    ensures a + (b + c) == (a + b) + c
  {
  }

  /** Character-by-character replacement: the reference the split/join idiom
      is compared against. */
  function ReplaceChar(s: string, from: char, to: char): (r: string)
    ensures |r| == |s|
    ensures forall i :: 0 <= i < |s| ==> r[i] == (if s[i] == from then to else s[i])
  {
    if |s| == 0 then "" else [if s[0] == from then to else s[0]] + ReplaceChar(s[1..], from, to)
  }

  /** Joining the pieces of a split with another one-character separator
      replaces every separator and touches nothing else. */
  lemma {:induction false} SplitJoinReplaces(s: string, from: char, to: char)
    ensures Join(Split(s, from), [to]) == ReplaceChar(s, from, to)
    decreases |s|
  {
    if |s| > 0 {
      var rest := Split(s[1..], from);
      SplitJoinReplaces(s[1..], from, to);
      var c := if s[0] == from then to else s[0];
      assert ReplaceChar(s, from, to) == [c] + ReplaceChar(s[1..], from, to);
      if s[0] == from {
        var parts := [""] + rest;
        assert Split(s, from) == parts;
        assert parts[1..] == rest;
        assert Join(parts, [to]) == "" + [to] + Join(rest, [to]);
      } else {
        var parts := [[s[0]] + rest[0]] + rest[1..];
        assert Split(s, from) == parts;
        if |rest| == 1 {
          assert Join(parts, [to]) == [s[0]] + rest[0];
        } else {
          assert parts[1..] == rest[1..];
          var tail := Join(rest[1..], [to]);
          assert Join(parts, [to]) == ([s[0]] + rest[0]) + [to] + tail;
          assert Join(rest, [to]) == rest[0] + [to] + tail;
          assert ([s[0]] + rest[0]) + [to] + tail == [s[0]] + (rest[0] + [to] + tail);
        }
      }
    }
  }

  /** Splitting is the only way to cut `s` into separator-free pieces that
      join back to `s`. */
  lemma {:induction false} SplitUnique(s: string, sep: char, parts: seq<string>)
    requires |parts| >= 1
    requires forall i :: 0 <= i < |parts| ==> sep !in parts[i]
    requires Join(parts, [sep]) == s
    ensures parts == Split(s, sep)
    decreases |s|
  {
    if |s| == 0 {
    } else if |parts[0]| == 0 {
      assert |parts| > 1;
      assert s[0] == sep;
      assert Join(parts[1..], [sep]) == s[1..];
      SplitUnique(s[1..], sep, parts[1..]);
    } else {
      var p0 := parts[0][1..];
      var parts' := [p0] + parts[1..];
      assert s[0] == parts[0][0];
      assert parts[0][0] != sep by { assert parts[0][0] in parts[0]; }
      assert forall i :: 0 <= i < |parts'| ==> sep !in parts'[i] by {
        forall i | 0 <= i < |parts'| ensures sep !in parts'[i] {
          if i > 0 {
            assert parts'[i] == parts[i];
          }
        }
      }
      if |parts| == 1 {
        assert Join(parts', [sep]) == s[1..];
      } else {
        assert Join(parts', [sep]) == p0 + [sep] + Join(parts[1..], [sep]);
        assert Join(parts, [sep]) == parts[0] + [sep] + Join(parts[1..], [sep]);
        assert Join(parts', [sep]) == s[1..];
      }
      SplitUnique(s[1..], sep, parts');
      assert [s[0]] + p0 == parts[0];
      assert parts == [[s[0]] + parts'[0]] + parts'[1..];
    }
  }

  // -------------------------------------------------------------- parseInt

  function DigitValue(c: char): nat
    requires IsDigit(c)
  {
    (c as int) - ('0' as int)
  }

  predicate AllDigits(s: string) {
    forall i :: 0 <= i < |s| ==> IsDigit(s[i])
  }

  /** The decimal value of a digit string, most significant digit first. */
  function DigitsValue(d: string): nat
    requires AllDigits(d)
  {
    if |d| == 0 then 0 else DigitsValue(d[..|d| - 1]) * 10 + DigitValue(d[|d| - 1])
  }

  /** The longest prefix made of decimal digits. */
  function LeadingDigits(s: string): (d: string)
    ensures AllDigits(d) && d <= s
    ensures |d| == |s| || !IsDigit(s[|d|])
  {
    if |s| > 0 && IsDigit(s[0]) then [s[0]] + LeadingDigits(s[1..]) else ""
  }

  /** `parseInt(s, 10)`: skip leading white space, take an optional sign, then
      the longest run of decimal digits; `None` stands for `NaN` (no digit
      follows). A negative zero is reported as 0. */
  function ParseInt(s: string): Option<int>
  {
    ParseSigned(TrimStart(s))
  }

  /** The sign step of `parseInt`, on text whose white space is already gone. */
  function ParseSigned(t: string): Option<int>
  {
    if |t| > 0 && t[0] == '-' then
      match ParseDigits(t[1..])
      case None => None
      case Some(v) => Some(-(v as int))
    else if |t| > 0 && t[0] == '+' then ParseDigits(t[1..])
    else ParseDigits(t)
  }

  /** The digit step of `parseInt`: the value of the longest digit prefix. */
  function ParseDigits(b: string): Option<nat>
  {
    var d := LeadingDigits(b);
    if |d| == 0 then None else Some(DigitsValue(d))
  }

  function DigitChar(n: nat): (c: char)
    requires n < 10
    ensures IsDigit(c) && DigitValue(c) == n
  {
    ('0' as int + n) as char
  }

  /** The decimal representation of a natural number, without leading zeros. */
  function ShowNat(n: nat): (s: string)
    ensures |s| >= 1 && AllDigits(s)
  {
    if n < 10 then [DigitChar(n)] else ShowNat(n / 10) + [DigitChar(n % 10)]
  }

  /** The decimal representation of an integer, `-` in front when negative. */
  function ShowInt(n: int): string
  {
    if n < 0 then "-" + ShowNat(-n) else ShowNat(n)
  }

  lemma {:induction false} DigitsValueOfShowNat(n: nat)
    ensures DigitsValue(ShowNat(n)) == n
  {
    if n >= 10 {
      DigitsValueOfShowNat(n / 10);
      var s := ShowNat(n);
      assert s[..|s| - 1] == ShowNat(n / 10);
    }
  }

  lemma {:induction false} LeadingDigitsOfDigits(d: string, tail: string)
    requires AllDigits(d)
    requires tail == [] || !IsDigit(tail[0])
    ensures LeadingDigits(d + tail) == d
  {
    if |d| > 0 {
      assert (d + tail)[1..] == d[1..] + tail;
      LeadingDigitsOfDigits(d[1..], tail);
    }
  }

  /** `parseInt` reads back what `ShowInt` wrote, whatever white space precedes
      it and whatever non-digit text follows it. */
  lemma ParseIntShowInt(ws: string, n: int, tail: string)
    requires AllSpace(ws)
    requires tail == [] || !IsDigit(tail[0])
    ensures ParseInt(ws + ShowInt(n) + tail) == Some(n)
  {
    var t := ShowInt(n) + tail;
    assert ws + ShowInt(n) + tail == ws + t;
    assert t != [] && !IsJsSpace(t[0]) by { assert t[0] == ShowInt(n)[0]; }
    TrimStartPrefix(ws, t);
    ParseIntSignedDigits(n, tail);
  }

  lemma ParseIntSignedDigits(n: int, tail: string)
    requires tail == [] || !IsDigit(tail[0])
    ensures ParseInt(ShowInt(n) + tail) == Some(n)
  {
    var t := ShowInt(n) + tail;
    if n < 0 {
      var m: nat := -n;
      assert t == "-" + (ShowNat(m) + tail);
      ParseIntNegative(m, tail);
    } else {
      var m: nat := n;
      assert t == ShowNat(m) + tail;
      ParseIntUnsigned(m, tail);
    }
  }

  lemma DigitIsNotSpaceOrSign(c: char)
    requires IsDigit(c)
    ensures !IsJsSpace(c) && c != '-' && c != '+'
  {
  }

  lemma ParseIntUnsigned(m: nat, tail: string)
    requires tail == [] || !IsDigit(tail[0])
    ensures ParseInt(ShowNat(m) + tail) == Some(m)
  {
    var t := ShowNat(m) + tail;
    assert t[0] == ShowNat(m)[0];
    DigitIsNotSpaceOrSign(t[0]);
    assert TrimStart(t) == t;
    assert ParseInt(t) == ParseSigned(t);
    assert ParseSigned(t) == ParseDigits(t);
    LeadingDigitsOfDigits(ShowNat(m), tail);
    DigitsValueOfShowNat(m);
  }

  lemma ParseIntNegative(m: nat, tail: string)
    requires tail == [] || !IsDigit(tail[0])
    ensures ParseInt("-" + (ShowNat(m) + tail)) == Some(-(m as int))
  {
    var t := "-" + (ShowNat(m) + tail);
    assert TrimStart(t) == t;
    assert t[1..] == ShowNat(m) + tail;
    LeadingDigitsOfDigits(ShowNat(m), tail);
    DigitsValueOfShowNat(m);
    assert ParseDigits(t[1..]) == Some(m);
  }

  lemma {:induction false} TrimStartPrefix(ws: string, t: string)
    requires AllSpace(ws)
    requires t == [] || !IsJsSpace(t[0])
    ensures TrimStart(ws + t) == t
  {
    if |ws| > 0 {
      assert (ws + t)[1..] == ws[1..] + t;
      TrimStartPrefix(ws[1..], t);
    } else {
      assert ws + t == t;
    }
  }

  /** `parseInt` fails exactly when no decimal digit follows the white space
      and the optional sign. */
  lemma ParseIntNaN(s: string)
    ensures ParseInt(s).None? <==>
      var t := TrimStart(s);
      var body := if |t| > 0 && (t[0] == '-' || t[0] == '+') then t[1..] else t;
      body == [] || !IsDigit(body[0])
  {
    var t := TrimStart(s);
    var body := if |t| > 0 && (t[0] == '-' || t[0] == '+') then t[1..] else t;
    assert ParseInt(s).None? <==> ParseDigits(body).None?;
  }
}

=== FILE: operator_rewrite.dfy ===
/** The comparison-operator rewrite of the query layer:
    `JSON.stringify(filter).replace(/\b(gt|gte|lt|lte|in)\b/g, m => "$" + m)`.
    `RewriteOperators` follows the regular expression's left-to-right global
    scan; `RewriteWords` is an independent word-by-word description of the same
    text, and the lemmas below connect the two and state what the rewrite
    does and does not touch. */
module OperatorRewrite {
  import opened Outcomes
  import opened JsText
  import opened QueryParams

  /** The alternatives of the regular expression, in the order it tries them. */
  const Alternatives: seq<string> := ["gt", "gte", "lt", "lte", "in"]

  /** One of the alternatives, tested character by character. */
  predicate IsOperator(w: string) {
    || (|w| == 2 && ((w[0] == 'g' && w[1] == 't') || (w[0] == 'l' && w[1] == 't') || (w[0] == 'i' && w[1] == 'n')))
    || (|w| == 3 && (w[0] == 'g' || w[0] == 'l') && w[1] == 't' && w[2] == 'e')
  }

  /** The character test accepts exactly the alternatives. */
  lemma IsOperatorIsAlternative(w: string)
    ensures IsOperator(w) <==> w in Alternatives
  {
    if IsOperator(w) {
      if |w| == 2 {
        if w[0] == 'g' { assert w == Alternatives[0]; }
        else if w[0] == 'l' { assert w == Alternatives[2]; }
        else { assert w == Alternatives[4]; }
      } else {
        if w[0] == 'g' { assert w == Alternatives[1]; }
        else { assert w == Alternatives[3]; }
      }
    }
  }

  predicate AllWord(w: string) {
    forall i :: 0 <= i < |w| ==> IsWordChar(w[i])
  }

  /** `\b` at position `n` of `s`, right after a word character. */
  predicate EndsWordAt(s: string, n: nat)
    requires n <= |s|
  {
    n == |s| || !IsWordChar(s[n])
  }

  lemma AlternativesAreWords()
    ensures forall a :: a in Alternatives ==> |a| > 0 && AllWord(a)
  {
    assert Alternatives == ["gt", "gte", "lt", "lte", "in"];
  }

  /** `(gt|gte|lt|lte|in)\b` tried at the start of `s` from alternative `k`
      on, taking the first alternative that is followed by a word boundary. */
  function MatchFrom(s: string, k: nat): Option<string>
    decreases |Alternatives| - k
  {
    if k >= |Alternatives| then None
    else
      var a := Alternatives[k];
      if a <= s && EndsWordAt(s, |a|) then Some(a) else MatchFrom(s, k + 1)
  }

  /** A match is an alternative that is a prefix of `s` followed by a word
      boundary, and no match means no alternative from `k` on is one. */
  lemma {:induction false} MatchFromSpec(s: string, k: nat)
    ensures var r := MatchFrom(s, k);
      && (r.Some? ==> r.value in Alternatives[k..] && r.value <= s && EndsWordAt(s, |r.value|))
      && (r.None? ==> forall j :: k <= j < |Alternatives| ==>
            !(Alternatives[j] <= s && EndsWordAt(s, |Alternatives[j]|)))
    decreases |Alternatives| - k
  {
    if k < |Alternatives| {
      MatchFromSpec(s, k + 1);
      if !(Alternatives[k] <= s && EndsWordAt(s, |Alternatives[k]|)) {
        assert Alternatives[k + 1..] == Alternatives[k..][1..];
      }
    }
  }

  /** The regular expression tried at the start of `s`, where the leading
      `\b` is already known to hold. */
  function MatchAt(s: string): Option<string>
  {
    MatchFrom(s, 0)
  }

  /** The global replace over `s`; `afterWord` tells whether the character
      before `s` is a word character, which decides the leading `\b`. Each
      match is replaced by `$` and the match, and the scan resumes after it. */
  function Scan(s: string, afterWord: bool): string
    decreases |s|
  {
    if |s| == 0 then ""
    else if !afterWord && MatchAt(s).Some? then
      var a := MatchAt(s).value;
      MatchFromSpec(s, 0);
      AlternativesAreWords();
      "$" + a + Scan(s[|a|..], true)
    else [s[0]] + Scan(s[1..], IsWordChar(s[0]))
  }

  /** The operator rewrite of a whole serialised filter. */
  function RewriteOperators(s: string): string
  {
    Scan(s, false)
  }

  // ------------------------------------------------------------ word runs

  /** The length of the run of word characters `s` starts with. */
  function WordLen(s: string): (n: nat)
    ensures n <= |s|
  {
    if |s| > 0 && IsWordChar(s[0]) then 1 + WordLen(s[1..]) else 0
  }

  /** The run `WordLen` measures is all word characters and is followed by a boundary. */
  lemma {:induction false} WordLenSound(s: string)
    ensures AllWord(s[..WordLen(s)]) && EndsWordAt(s, WordLen(s))
  {
    if |s| > 0 && IsWordChar(s[0]) {
      WordLenSound(s[1..]);
      var n := WordLen(s);
      assert forall i :: 1 <= i < n ==> s[..n][i] == s[1..][..n - 1][i - 1];
    }
  }

  lemma {:induction false} WordLenUnique(s: string, a: string)
    requires AllWord(a) && a <= s && EndsWordAt(s, |a|)
    ensures WordLen(s) == |a|
  {
    if |a| > 0 {
      assert a[1..] <= s[1..];
      WordLenUnique(s[1..], a[1..]);
    }
  }

  lemma WordLenOfWordThenBreak(w: string, t: string)
    requires AllWord(w)
    requires t == [] || !IsWordChar(t[0])
    ensures WordLen(w + t) == |w| && (w + t)[..|w|] == w && (w + t)[|w|..] == t
  {
    WordLenUnique(w + t, w);
  }

  /** Word-by-word description of the rewrite: every maximal run of word
      characters that is exactly an operator gets a `$` in front; every
      other character is copied. */
  function RewriteWords(s: string): string
    decreases |s|
  {
    if |s| == 0 then ""
    else if !IsWordChar(s[0]) then [s[0]] + RewriteWords(s[1..])
    else
      var n := WordLen(s);
      var w := s[..n];
      (if IsOperator(w) then "$" + w else w) + RewriteWords(s[n..])
  }

  lemma MatchAtNonWord(s: string)
    requires s != [] && !IsWordChar(s[0])
    ensures MatchAt(s) == None
  {
    MatchFromSpec(s, 0);
    AlternativesAreWords();
  }

  /** At a word boundary the regular expression matches exactly when the
      whole word there is an operator, and then it matches that word. */
  lemma MatchAtWord(s: string)
    requires s != [] && IsWordChar(s[0])
    ensures MatchAt(s) == if IsOperator(s[..WordLen(s)]) then Some(s[..WordLen(s)]) else None
  {
    if MatchFrom(s, 0).Some? {
      MatchedIsWord(s);
    } else {
      UnmatchedIsNotOperator(s);
    }
  }

  lemma MatchedIsWord(s: string)
    requires s != [] && IsWordChar(s[0]) && MatchFrom(s, 0).Some?
    ensures MatchFrom(s, 0).value == s[..WordLen(s)] && IsOperator(s[..WordLen(s)])
  {
    var a := MatchFrom(s, 0).value;
    MatchFromSpec(s, 0);
    AlternativesAreWords();
    WordLenUnique(s, a);
    IsOperatorIsAlternative(a);
  }

  lemma UnmatchedIsNotOperator(s: string)
    requires s != [] && IsWordChar(s[0]) && MatchFrom(s, 0).None?
    ensures !IsOperator(s[..WordLen(s)])
  {
    var w := s[..WordLen(s)];
    WordLenSound(s);
    IsOperatorIsAlternative(w);
    MatchFromSpec(s, 0);
  }

  lemma {:induction false} ScanThroughWord(s: string)
    ensures Scan(s, true) == s[..WordLen(s)] + Scan(s[WordLen(s)..], true)
    decreases |s|
  {
    if WordLen(s) > 0 {
      ScanThroughWord(s[1..]);
      assert s[1..][WordLen(s) - 1..] == s[WordLen(s)..];
      assert s[..WordLen(s)] == [s[0]] + s[1..][..WordLen(s) - 1];
    }
  }

  lemma ScanAfterBreak(s: string)
    requires s == [] || !IsWordChar(s[0])
    ensures Scan(s, true) == Scan(s, false)
  {
    if s != [] {
      MatchAtNonWord(s);
    }
  }

  /** The regular-expression scan and the word-by-word description agree on
      every input. */
  lemma {:induction false} RewriteIsWordwise(s: string)
    ensures RewriteOperators(s) == RewriteWords(s)
    decreases |s|
  {
    if |s| == 0 {
    } else if !IsWordChar(s[0]) {
      MatchAtNonWord(s);
      RewriteIsWordwise(s[1..]);
    } else {
      ScanAtWord(s);
      RewriteIsWordwise(s[WordLen(s)..]);
    }
  }

  /** At the start of a word the scan emits the word, with a `$` in front
      when it is an operator, and resumes at the break after it. */
  lemma ScanAtWord(s: string)
    requires s != [] && IsWordChar(s[0])
    ensures var w := s[..WordLen(s)];
      Scan(s, false) == (if IsOperator(w) then "$" + w else w) + Scan(s[WordLen(s)..], false)
  {
    var n := WordLen(s);
    WordLenSound(s);
    MatchAtWord(s);
    ScanAfterBreak(s[n..]);
    if !IsOperator(s[..n]) {
      ScanPastWord(s);
    }
  }

  lemma ScanPastWord(s: string)
    requires s != [] && IsWordChar(s[0]) && MatchAt(s).None?
    ensures Scan(s, false) == s[..WordLen(s)] + Scan(s[WordLen(s)..], true)
  {
    var t := s[1..];
    ScanUnmatched(s);
    ScanThroughWord(t);
    WordLenTail(s);
    ConcatAssoc([s[0]], t[..WordLen(t)], Scan(t[WordLen(t)..], true));
  }

  /** The word at the start of `s` is its first character and the word at
      the start of the rest. */
  lemma WordLenTail(s: string)
    requires s != [] && IsWordChar(s[0])
    ensures var n, t := WordLen(s), s[1..];
      && n == WordLen(t) + 1
      && t[WordLen(t)..] == s[n..]
      && s[..n] == [s[0]] + t[..WordLen(t)]
  {
  }

  lemma ScanUnmatched(s: string)
    requires s != [] && MatchAt(s).None?
    ensures Scan(s, false) == [s[0]] + Scan(s[1..], IsWordChar(s[0]))
  {
  }

  // ------------------------------------------------- splitting at a break

  /** A place between `x` and `y` that is not inside a word. */
  predicate Break(x: string, y: string) {
    x == [] || y == [] || !IsWordChar(x[|x| - 1]) || !IsWordChar(y[0])
  }

  lemma {:induction false} RewriteWordsSplit(x: string, y: string)
    requires Break(x, y)
    ensures RewriteWords(x + y) == RewriteWords(x) + RewriteWords(y)
    decreases |x|, 1
  {
    if |x| == 0 {
      assert x + y == y;
    } else if !IsWordChar(x[0]) {
      RewriteWordsSplitAtChar(x, y);
    } else {
      RewriteWordsSplitAtWord(x, y);
    }
  }

  lemma {:induction false} RewriteWordsSplitAtChar(x: string, y: string)
    requires Break(x, y) && x != [] && !IsWordChar(x[0])
    ensures RewriteWords(x + y) == RewriteWords(x) + RewriteWords(y)
    decreases |x|, 0
  {
    BreakAfterFirst(x, y);
    RewriteWordsSplit(x[1..], y);
    RewriteWordsAfterChar(x, y);
  }

  lemma BreakAfterFirst(x: string, y: string)
    requires Break(x, y) && x != []
    ensures Break(x[1..], y)
  {
    if |x| > 1 {
      assert x[1..][|x| - 2] == x[|x| - 1];
    }
  }

  lemma RewriteWordsAfterChar(x: string, y: string)
    requires x != [] && !IsWordChar(x[0])
    ensures RewriteWords(x + y) == [x[0]] + RewriteWords(x[1..] + y)
    ensures RewriteWords(x) == [x[0]] + RewriteWords(x[1..])
  {
    assert (x + y)[0] == x[0] && (x + y)[1..] == x[1..] + y;
  }

  lemma {:induction false} RewriteWordsSplitAtWord(x: string, y: string)
    requires Break(x, y) && x != [] && IsWordChar(x[0])
    ensures RewriteWords(x + y) == RewriteWords(x) + RewriteWords(y)
    decreases |x|, 0
  {
    var n := WordLen(x);
    RewriteWordsAfterWord(x, y);
    RewriteWordsSplit(x[n..], y);
    var p := if IsOperator(x[..n]) then "$" + x[..n] else x[..n];
    ConcatAssoc(p, RewriteWords(x[n..]), RewriteWords(y));
  }

  /** The rewrite of a text that starts with a word, with and without a
      suffix `y` after a break. */
  lemma RewriteWordsAfterWord(x: string, y: string)
    requires Break(x, y) && x != [] && IsWordChar(x[0])
    ensures var n := WordLen(x);
      var p := if IsOperator(x[..n]) then "$" + x[..n] else x[..n];
      && 0 < n && Break(x[n..], y)
      && RewriteWords(x + y) == p + RewriteWords(x[n..] + y)
      && RewriteWords(x) == p + RewriteWords(x[n..])
  {
    var n := WordLen(x);
    var w, t := x[..n], x[n..];
    LeadingWordThenBreak(x, y);
    RewriteWordsWordThen(w, t);
    RewriteWordsWordThen(w, t + y);
  }

  /** `s` is its leading word followed by a break. */
  lemma LeadingWord(s: string)
    requires s != [] && IsWordChar(s[0])
    ensures var n := WordLen(s);
      && n > 0 && AllWord(s[..n]) && s == s[..n] + s[n..]
      && (s[n..] == [] || !IsWordChar(s[n..][0]))
  {
    WordLenSound(s);
  }

  /** Cutting `x` after its leading word leaves a break on both sides of the rest. */
  lemma LeadingWordThenBreak(x: string, y: string)
    requires Break(x, y) && x != [] && IsWordChar(x[0])
    ensures var n := WordLen(x);
      && n > 0 && AllWord(x[..n])
      && x == x[..n] + x[n..] && x + y == x[..n] + (x[n..] + y)
      && (x[n..] == [] || !IsWordChar(x[n..][0]))
      && (x[n..] + y == [] || !IsWordChar((x[n..] + y)[0]))
      && Break(x[n..], y)
  {
    var n := WordLen(x);
    var w, t := x[..n], x[n..];
    LeadingWord(x);
    ConcatAssoc(w, t, y);
    if t == [] {
      assert x[|x| - 1] == w[n - 1];
      assert t + y == y;
    } else {
      assert (t + y)[0] == t[0];
      assert t[|t| - 1] == x[|x| - 1];
    }
  }

  lemma RewriteWordsWordThen(w: string, t: string)
    requires w != [] && AllWord(w)
    requires t == [] || !IsWordChar(t[0])
    ensures RewriteWords(w + t) == (if IsOperator(w) then "$" + w else w) + RewriteWords(t)
  {
    WordLenOfWordThenBreak(w, t);
  }

  /** The rewrite of a text cut where no word is split is the rewrite of the
      two pieces put together: no match ever spans such a place. */
  lemma RewriteAtBreak(x: string, y: string)
    requires Break(x, y)
    ensures RewriteOperators(x + y) == RewriteOperators(x) + RewriteOperators(y)
  {
    RewriteIsWordwise(x + y);
    RewriteIsWordwise(x);
    RewriteIsWordwise(y);
    RewriteWordsSplit(x, y);
  }

  /** A whole word gets a `$` exactly when it is an operator: `in` is
      rewritten, `login` or `index` are not. */
  lemma RewriteWord(w: string)
    requires w != [] && AllWord(w)
    ensures RewriteOperators(w) == if IsOperator(w) then "$" + w else w
  {
    RewriteIsWordwise(w);
    RewriteWordsWord(w);
  }

  lemma RewriteWordsWord(w: string)
    requires w != [] && AllWord(w)
    ensures RewriteWords(w) == if IsOperator(w) then "$" + w else w
  {
    WordLenUnique(w, w);
    assert w[..|w|] == w;
    assert w[|w|..] == [];
  }

  predicate NoWordChars(g: string) {
    forall i :: 0 <= i < |g| ==> !IsWordChar(g[i])
  }

  lemma {:induction false} RewriteNoWordChars(g: string)
    requires NoWordChars(g)
    ensures RewriteOperators(g) == g
  {
    RewriteIsWordwise(g);
    RewriteWordsNoWordChars(g);
  }

  lemma {:induction false} RewriteWordsNoWordChars(g: string)
    requires NoWordChars(g)
    ensures RewriteWords(g) == g
  {
    if |g| > 0 {
      RewriteWordsNoWordChars(g[1..]);
    }
  }

  /** Text made only of non-word characters separates the rewrite of what
      stands on either side. */
  lemma RewriteGlue(x: string, g: string, y: string)
    requires g != [] && NoWordChars(g)
    ensures RewriteOperators(x + g + y) == RewriteOperators(x) + g + RewriteOperators(y)
  {
    assert x + g + y == x + (g + y);
    RewriteAtBreak(x, g + y);
    RewriteAtBreak(g, y);
    RewriteNoWordChars(g);
  }

  /** Only whole words are rewritten: a word standing between non-word
      characters (or the ends of the text) gets a `$` exactly when it is an
      operator, and the text around it is rewritten independently. */
  lemma RewriteWholeWord(a: string, w: string, b: string)
    requires a == [] || !IsWordChar(a[|a| - 1])
    requires w != [] && AllWord(w)
    requires b == [] || !IsWordChar(b[0])
    ensures RewriteOperators(a + w + b) ==
      RewriteOperators(a) + (if IsOperator(w) then "$" + w else w) + RewriteOperators(b)
  {
    RewriteIsWordwise(a + w + b);
    RewriteIsWordwise(a);
    RewriteIsWordwise(b);
    RewriteWordsWholeWord(a, w, b);
  }

  lemma RewriteWordsWholeWord(a: string, w: string, b: string)
    requires a == [] || !IsWordChar(a[|a| - 1])
    requires w != [] && AllWord(w)
    requires b == [] || !IsWordChar(b[0])
    ensures RewriteWords(a + w + b) ==
      RewriteWords(a) + (if IsOperator(w) then "$" + w else w) + RewriteWords(b)
  {
    var rw := if IsOperator(w) then "$" + w else w;
    assert a + w + b == a + (w + b);
    assert Break(a, w + b);
    RewriteWordsSplit(a, w + b);
    RewriteWordsSplit(w, b);
    RewriteWordsWord(w);
    assert RewriteWords(a) + (rw + RewriteWords(b)) == RewriteWords(a) + rw + RewriteWords(b);
  }

  // ------------------------------------------- only `$` characters are added

  /** The maximal word runs of `s`, in order. */
  function Words(s: string): seq<string>
    decreases |s|
  {
    if |s| == 0 then []
    else if !IsWordChar(s[0]) then Words(s[1..])
    else [s[..WordLen(s)]] + Words(s[WordLen(s)..])
  }

  function CountOperators(ws: seq<string>): nat
  {
    if |ws| == 0 then 0 else (if IsOperator(ws[0]) then 1 else 0) + CountOperators(ws[1..])
  }

  lemma RewriteWordsStartsAtBreak(s: string)
    requires s == [] || !IsWordChar(s[0])
    ensures RewriteWords(s) == [] || !IsWordChar(RewriteWords(s)[0])
  {
  }

  lemma {:induction false} RewriteWordsLength(s: string)
    ensures |RewriteWords(s)| == |s| + CountOperators(Words(s))
    decreases |s|
  {
    if |s| > 0 {
      if !IsWordChar(s[0]) {
        RewriteWordsLength(s[1..]);
      } else {
        RewriteWordsLength(s[WordLen(s)..]);
      }
    }
  }

  lemma WordsAfterBreakChar(c: char, t: string)
    requires !IsWordChar(c)
    ensures Words([c] + t) == Words(t)
  {
    assert ([c] + t)[1..] == t;
  }

  lemma WordsOfWordThenBreak(w: string, t: string)
    requires w != [] && AllWord(w)
    requires t == [] || !IsWordChar(t[0])
    ensures Words(w + t) == [w] + Words(t)
  {
    WordLenOfWordThenBreak(w, t);
  }

  lemma {:induction false} RewriteWordsKeepsWords(s: string)
    ensures Words(RewriteWords(s)) == Words(s)
    decreases |s|
  {
    if |s| > 0 {
      if !IsWordChar(s[0]) {
        RewriteWordsKeepsWords(s[1..]);
        WordsAfterBreakChar(s[0], RewriteWords(s[1..]));
      } else {
        var n := WordLen(s);
        var w := s[..n];
        WordLenSound(s);
        var rest := RewriteWords(s[n..]);
        RewriteWordsKeepsWords(s[n..]);
        RewriteWordsStartsAtBreak(s[n..]);
        WordsOfWordThenBreak(w, rest);
        if IsOperator(w) {
          assert "$" + w + rest == ['$'] + (w + rest);
          WordsAfterBreakChar('$', w + rest);
        }
      }
    }
  }

  /** The rewrite leaves every word of the text as it was, in order, and
      adds one character per operator word: the inserted `$`. */
  lemma RewriteAddsOneCharPerOperator(s: string)
    ensures Words(RewriteOperators(s)) == Words(s)
    ensures |RewriteOperators(s)| == |s| + CountOperators(Words(s))
  {
    RewriteIsWordwise(s);
    RewriteWordsKeepsWords(s);
    RewriteWordsLength(s);
  }

  /** Drops each `$` that stands right before a whole operator word. */
  function Unrewrite(t: string): string
    decreases |t|
  {
    if |t| == 0 then ""
    else if t[0] == '$' && IsOperator(t[1..][..WordLen(t[1..])]) then Unrewrite(t[1..])
    else [t[0]] + Unrewrite(t[1..])
  }

  lemma {:induction false} UnrewriteWord(w: string, t: string)
    requires AllWord(w)
    ensures Unrewrite(w + t) == w + Unrewrite(t)
    decreases |w|
  {
    if |w| == 0 {
      assert w + t == t;
    } else {
      assert (w + t)[0] == w[0];
      assert (w + t)[1..] == w[1..] + t;
      UnrewriteWord(w[1..], t);
    }
  }

  /** The text the rewrite produces never starts with a whole operator word. */
  lemma RewriteWordsLeadingWord(y: string)
    ensures var r := RewriteWords(y); !IsOperator(r[..WordLen(r)])
  {
    var r := RewriteWords(y);
    AlternativesAreWords();
    if |y| > 0 && IsWordChar(y[0]) {
      var n := WordLen(y);
      var w := y[..n];
      WordLenSound(y);
      if !IsOperator(w) {
        var rest := RewriteWords(y[n..]);
        RewriteWordsStartsAtBreak(y[n..]);
        WordLenOfWordThenBreak(w, rest);
      }
    }
  }

  lemma {:induction false} UnrewriteRewriteWords(s: string)
    ensures Unrewrite(RewriteWords(s)) == s
    decreases |s|
  {
    if |s| > 0 {
      if !IsWordChar(s[0]) {
        var x := RewriteWords(s[1..]);
        UnrewriteRewriteWords(s[1..]);
        RewriteWordsLeadingWord(s[1..]);
        UnrewriteKeeps(s[0], x);
        assert s == [s[0]] + s[1..];
      } else {
        var n := WordLen(s);
        var w, t := s[..n], s[n..];
        var x := RewriteWords(t);
        LeadingWord(s);
        RewriteWordsWordThen(w, t);
        UnrewriteRewriteWords(t);
        RewriteWordsStartsAtBreak(t);
        UnrewriteWord(w, x);
        if IsOperator(w) {
          UnrewriteDrops(w, x);
        }
      }
    }
  }

  /** A character is kept unless it is a `$` before a whole operator word. */
  lemma UnrewriteKeeps(c: char, x: string)
    requires c != '$' || !IsOperator(x[..WordLen(x)])
    ensures Unrewrite([c] + x) == [c] + Unrewrite(x)
  {
    assert ([c] + x)[0] == c && ([c] + x)[1..] == x;
  }

  /** A `$` before a whole operator word is dropped. */
  lemma UnrewriteDrops(w: string, x: string)
    requires IsOperator(w) && AllWord(w)
    requires x == [] || !IsWordChar(x[0])
    ensures Unrewrite("$" + w + x) == Unrewrite(w + x)
  {
    var u := "$" + w + x;
    WordLenOfWordThenBreak(w, x);
    DollarThen(w + x);
    assert u == "$" + (w + x);
  }

  lemma DollarThen(v: string)
    ensures ("$" + v)[0] == '$' && ("$" + v)[1..] == v
  {
  }

  /** The rewrite only inserts `$` characters: dropping each `$` that stands
      before a whole operator word gives back the input, whatever `$` it
      already contained. */
  lemma RewriteUndone(s: string)
    ensures Unrewrite(RewriteOperators(s)) == s
  {
    RewriteIsWordwise(s);
    UnrewriteRewriteWords(s);
  }

  // ------------------------------------------ the rewrite of a serialisation

  lemma RewriteQuoted(s: string, enc: string -> string)
    ensures RewriteOperators("\"" + enc(s) + "\"") == "\"" + RewriteOperators(enc(s)) + "\""
  {
    RewriteBracketed("\"", enc(s), "\"");
  }

  lemma RewriteBracketed(o: string, x: string, c: string)
    requires o != [] && NoWordChars(o) && c != [] && NoWordChars(c)
    ensures RewriteOperators(o + x + c) == o + RewriteOperators(x) + c
  {
    RewriteOpen(o, x + c);
    RewriteClose(x, c);
    ConcatAssoc(o, x, c);
    ConcatAssoc(o, RewriteOperators(x), c);
  }

  /** Leading non-word text is kept and the rest is rewritten on its own. */
  lemma RewriteOpen(o: string, y: string)
    requires o != [] && NoWordChars(o)
    ensures RewriteOperators(o + y) == o + RewriteOperators(y)
  {
    RewriteAtBreak(o, y);
    RewriteNoWordChars(o);
  }

  /** Trailing non-word text is kept and the rest is rewritten on its own. */
  lemma RewriteClose(x: string, c: string)
    requires c != [] && NoWordChars(c)
    ensures RewriteOperators(x + c) == RewriteOperators(x) + c
  {
    RewriteAtBreak(x, c);
    RewriteNoWordChars(c);
  }

  /** The rewrite of a serialised query never touches its structure (quotes,
      brackets, braces, colons and commas): it acts on each encoded key and
      each encoded string value separately, so values are rewritten as well
      as keys. */
  lemma {:induction false} RewriteStringify(v: Value, enc: string -> string, g: string -> string)
    requires forall s :: g(s) == RewriteOperators(enc(s))
    ensures RewriteOperators(StringifyWith(v, enc)) == StringifyWith(v, g)
    decreases v
  {
    match v
    case Str(s) =>
      RewriteQuoted(s, enc);
    case List(items) =>
      RewriteBracketed("[", StringifyItems(items, enc), "]");
      RewriteStringifyItems(items, enc, g);
    case Obj(fields) =>
      RewriteBracketed("{", StringifyFields(fields, enc), "}");
      RewriteStringifyFields(fields, enc, g);
  }

  lemma {:induction false} RewriteStringifyItems(items: seq<Value>, enc: string -> string, g: string -> string)
    requires forall s :: g(s) == RewriteOperators(enc(s))
    ensures RewriteOperators(StringifyItems(items, enc)) == StringifyItems(items, g)
    decreases items
  {
    if |items| == 1 {
      RewriteStringify(items[0], enc, g);
    } else if |items| > 1 {
      RewriteStringify(items[0], enc, g);
      RewriteStringifyItems(items[1..], enc, g);
      RewriteGlue(StringifyWith(items[0], enc), ",", StringifyItems(items[1..], enc));
    } else {
      assert RewriteOperators("") == "";
    }
  }

  lemma {:induction false} RewriteStringifyFields(fields: seq<Field>, enc: string -> string, g: string -> string)
    requires forall s :: g(s) == RewriteOperators(enc(s))
    ensures RewriteOperators(StringifyFields(fields, enc)) == StringifyFields(fields, g)
    decreases fields
  {
    if |fields| == 0 {
      assert RewriteOperators("") == "";
    } else {
      var k := fields[0].key;
      var body := StringifyWith(fields[0].value, enc);
      var head := "\"" + enc(k) + "\":" + body;
      RewriteStringify(fields[0].value, enc, g);
      RewriteMember(enc(k), body);
      assert g(k) == RewriteOperators(enc(k));
      if |fields| > 1 {
        RewriteStringifyFields(fields[1..], enc, g);
        RewriteGlue(head, ",", StringifyFields(fields[1..], enc));
      }
    }
  }

  /** One `"key":value` member of a serialised object. */
  lemma RewriteMember(k: string, body: string)
    ensures RewriteOperators("\"" + k + "\":" + body) ==
      "\"" + RewriteOperators(k) + "\":" + RewriteOperators(body)
  {
    var rk, rb := RewriteOperators(k), RewriteOperators(body);
    RewriteOpen("\"", k + "\":" + body);
    RewriteGlue(k, "\":", body);
    MemberShape("\"", k, "\":", body);
    MemberShape("\"", rk, "\":", rb);
  }

  lemma MemberShape(a: string, b: string, c: string, d: string)
    ensures a + b + c + d == a + (b + c + d)
  {
  }

  lemma {:induction false} RewriteWordsChars(s: string)
    ensures forall i :: 0 <= i < |RewriteWords(s)| ==> RewriteWords(s)[i] == '$' || RewriteWords(s)[i] in s
    decreases |s|
  {
    if |s| > 0 {
      var r := RewriteWords(s);
      if !IsWordChar(s[0]) {
        RewriteWordsChars(s[1..]);
        forall i | 0 <= i < |r| ensures r[i] == '$' || r[i] in s {
          if i > 0 {
            assert r[i] == RewriteWords(s[1..])[i - 1];
          }
        }
      } else {
        var n := WordLen(s);
        var w := s[..n];
        var head := if IsOperator(w) then "$" + w else w;
        RewriteWordsChars(s[n..]);
        forall i | 0 <= i < |r| ensures r[i] == '$' || r[i] in s {
          if i >= |head| {
            assert r[i] == RewriteWords(s[n..])[i - |head|];
          } else if IsOperator(w) && i > 0 {
            assert r[i] == w[i - 1];
          } else if !IsOperator(w) {
            assert r[i] == w[i];
          }
        }
      }
    }
  }

  /** A plain string stays plain: the only character the rewrite adds is `$`. */
  lemma RewriteKeepsPlain(s: string)
    requires PlainString(s)
    ensures PlainString(RewriteOperators(s))
  {
    RewriteIsWordwise(s);
    RewriteWordsChars(s);
  }

  /** For a query whose keys and string values need no JSON escaping, the
      rewritten text is exactly the serialisation of the same query with the
      rewrite applied to every key and every string value: what the store
      receives after `JSON.parse`. */
  lemma RewriteStringifyPlain(v: Value)
    requires Plain(v)
    ensures RewriteOperators(Stringify(v)) == Stringify(MapStrings(v, RewriteOperators))
  {
    RewriteStringify(v, Escape, RewriteEscaped);
    forall s | PlainString(s)
      ensures RewriteEscaped(s) == EscapeRewritten(s)
    {
      EscapePlain(s);
      RewriteKeepsPlain(s);
      EscapePlain(RewriteOperators(s));
    }
    StringifyPlainAlike(v, RewriteEscaped, EscapeRewritten);
    StringifyMapStrings(v, Escape, RewriteOperators, EscapeRewritten);
  }

  function RewriteEscaped(s: string): string {
    RewriteOperators(Escape(s))
  }

  function EscapeRewritten(s: string): string {
    Escape(RewriteOperators(s))
  }
}

=== FILE: outcomes.dfy ===
/** Option and Result values for the absent parameters, failed parses and
    error responses of the query layer and the bootcamp controllers. */
module Outcomes {

  /** A value that may be absent: an unset query parameter, an unset schema path,
      a `parseInt` that produced `NaN`. */
  datatype Option<+T> = None | Some(value: T) {
    function GetOr(default: T): T {
      match this
      case Some(v) => v
      case None => default
    }
  }

  /** The outcome of a step that can fail with an error value. */
  datatype Result<+T, +E> = Ok(value: T) | Err(error: E)
}

=== FILE: query_params.dfy ===
/** The request's query object as Express's query-string parser hands it to a
    handler: an ordered list of fields whose values are strings, arrays
    (`?a=1&a=2`) or nested objects (`?price[gte]=100`), together with the
    JavaScript operations the query layer applies to it: property lookup,
    `delete`, `String(value)` and `JSON.stringify`. */
module QueryParams {
  import opened Outcomes
  import opened JsText

  datatype Value = Str(s: string) | List(items: seq<Value>) | Obj(fields: seq<Field>)

  /** One own property of a query object. The order of a list of fields is the
      object's property order, which `JSON.stringify` follows. */
  datatype Field = Field(key: string, value: Value)

  type Query = seq<Field>

  predicate DistinctKeys(q: Query) {
    forall i, j :: 0 <= i < j < |q| ==> q[i].key != q[j].key
  }

  /** `query[key]`: the value of the property, `None` for `undefined`. */
  function Lookup(q: Query, key: string): (r: Option<Value>)
    ensures r.Some? <==> exists i :: 0 <= i < |q| && q[i].key == key
    ensures r.Some? ==> exists i :: 0 <= i < |q| && q[i] == Field(key, r.value)
  {
    if |q| == 0 then None
    else if q[0].key == key then Some(q[0].value)
    else Lookup(q[1..], key)
  }

  // -------------------------------------------------- removing control keys

  const SelectKey: string := "select"
  const SortKey: string := "sort"
  const PageKey: string := "page"
  const LimitKey: string := "limit"

  /** The parameters that steer the query rather than filter it. */
  const ControlKeys: seq<string> := [SelectKey, SortKey, PageKey, LimitKey]

  /** `delete query[key]`. */
  function Delete(q: Query, key: string): Query
  {
    if |q| == 0 then []
    else if q[0].key == key then Delete(q[1..], key)
    else [q[0]] + Delete(q[1..], key)
  }

  /** `keys.forEach(key => delete query[key])`. */
  function DeleteEach(q: Query, keys: seq<string>): Query
    decreases |keys|
  {
    if |keys| == 0 then q else DeleteEach(Delete(q, keys[0]), keys[1..])
  }

  /** One pass over the fields keeping those whose key is not listed: the
      reference for a series of deletions. */
  function KeepUnlisted(q: Query, keys: seq<string>): (r: Query)
    ensures |r| <= |q|
    ensures forall i :: 0 <= i < |r| ==> r[i] in q && r[i].key !in keys
    ensures forall i :: 0 <= i < |q| && q[i].key !in keys ==> q[i] in r
    ensures (forall i :: 0 <= i < |q| ==> q[i].key !in keys) ==> r == q
  {
    if |q| == 0 then []
    else if q[0].key in keys then KeepUnlisted(q[1..], keys)
    else [q[0]] + KeepUnlisted(q[1..], keys)
  }

  /** The kept fields keep the query's order: keeping distributes over
      concatenation, and a single field survives exactly when its key is
      not listed. These two facts determine `KeepUnlisted` on every query. */
  lemma {:induction false} KeepUnlistedInOrder(a: Query, b: Query, f: Field, keys: seq<string>)
    ensures KeepUnlisted(a + b, keys) == KeepUnlisted(a, keys) + KeepUnlisted(b, keys)
    ensures KeepUnlisted([f], keys) == if f.key in keys then [] else [f]
  {
    if |a| > 0 {
      assert (a + b)[1..] == a[1..] + b;
      KeepUnlistedInOrder(a[1..], b, f, keys);
    } else {
      assert a + b == b;
    }
  }

  lemma {:induction false} DeleteKeeps(q: Query, key: string, keys: seq<string>)
    ensures KeepUnlisted(Delete(q, key), keys) == KeepUnlisted(q, [key] + keys)
  {
    if |q| > 0 {
      DeleteKeeps(q[1..], key, keys);
    }
  }

  lemma {:induction false} KeepUnlistedNone(q: Query)
    ensures KeepUnlisted(q, []) == q
  {
    if |q| > 0 {
      KeepUnlistedNone(q[1..]);
    }
  }

  lemma {:induction false} KeepUnlistedSameKeys(q: Query, a: seq<string>, b: seq<string>)
    requires forall k :: k in a <==> k in b
    ensures KeepUnlisted(q, a) == KeepUnlisted(q, b)
  {
    if |q| > 0 {
      KeepUnlistedSameKeys(q[1..], a, b);
    }
  }

  /** Deleting the listed keys one after another, as the `forEach` does, leaves
      exactly the fields whose key is not listed, in their original order. */
  lemma {:induction false} DeleteEachKeepsUnlisted(q: Query, keys: seq<string>)
    ensures DeleteEach(q, keys) == KeepUnlisted(q, keys)
    decreases |keys|
  {
    if |keys| == 0 {
      KeepUnlistedNone(q);
    } else {
      DeleteEachKeepsUnlisted(Delete(q, keys[0]), keys[1..]);
      DeleteKeeps(q, keys[0], keys[1..]);
      assert [keys[0]] + keys[1..] == keys;
    }
  }

  lemma {:induction false} LookupKeepUnlisted(q: Query, keys: seq<string>, k: string)
    ensures Lookup(KeepUnlisted(q, keys), k) == if k in keys then None else Lookup(q, k)
  {
    if |q| > 0 {
      LookupKeepUnlisted(q[1..], keys, k);
    }
  }

  lemma {:induction false} KeepUnlistedDistinct(q: Query, keys: seq<string>)
    requires DistinctKeys(q)
    ensures DistinctKeys(KeepUnlisted(q, keys))
  {
    if |q| > 0 {
      KeepUnlistedDistinct(q[1..], keys);
      var r := KeepUnlisted(q[1..], keys);
      forall i | 0 <= i < |r| ensures r[i].key != q[0].key {
        var j :| 0 <= j < |q[1..]| && q[1..][j] == r[i];
        assert q[j + 1] == r[i];
      }
    }
  }

  lemma {:induction false} KeepUnlistedTwice(q: Query, keys: seq<string>)
    ensures KeepUnlisted(KeepUnlisted(q, keys), keys) == KeepUnlisted(q, keys)
  {
    if |q| > 0 {
      KeepUnlistedTwice(q[1..], keys);
    }
  }

  /** The filter part of the query: `{ ...req.query }` with the four control
      keys deleted. The copy leaves the request's own object as it was; here
      every value is immutable, so the input is untouched by construction. */
  function RemoveControlKeys(q: Query): (r: Query)
    ensures forall k :: Lookup(r, k) == if k in ControlKeys then None else Lookup(q, k)
    ensures r == KeepUnlisted(q, ControlKeys)
    ensures DistinctKeys(q) ==> DistinctKeys(r)
  {
    DeleteEachKeepsUnlisted(q, ControlKeys);
    LookupKeepUnlistedAll(q, ControlKeys);
    if DistinctKeys(q) then
      KeepUnlistedDistinct(q, ControlKeys);
      DeleteEach(q, ControlKeys)
    else
      DeleteEach(q, ControlKeys)
  }

  lemma LookupKeepUnlistedAll(q: Query, keys: seq<string>)
    ensures forall k :: Lookup(KeepUnlisted(q, keys), k) == if k in keys then None else Lookup(q, k)
  {
    forall k ensures Lookup(KeepUnlisted(q, keys), k) == if k in keys then None else Lookup(q, k) {
      LookupKeepUnlisted(q, keys, k);
    }
  }

  /** Removing the control keys a second time removes nothing more. */
  lemma RemoveControlKeysIdempotent(q: Query)
    ensures RemoveControlKeys(RemoveControlKeys(q)) == RemoveControlKeys(q)
  {
    KeepUnlistedTwice(q, ControlKeys);
  }

  // ------------------------------------------------------------- String(v)

  const ToStringKey: string := "toString"
  const UndefinedText: string := "undefined"
  const ObjectText: string := "[object Object]"

  /** A value `String()` cannot convert ("Cannot convert object to primitive
      value"): an object with a key `toString` of its own, whose value, a
      string, array or object, hides the inherited method and cannot be
      called; or an array holding such a value at any depth, since `join`
      converts every element. Express's query parser keeps such keys:
      `?page[toString]=1` gives `page` the object `{ toString: "1" }`. */
  predicate NoPrimitive(v: Value) {
    match v
    case Str(_) => false
    case List(items) => exists i :: 0 <= i < |items| && NoPrimitive(items[i])
    case Obj(fields) => Lookup(fields, ToStringKey).Some?
  }

  /** `String(value)`, as `parseInt` applies it to its argument: `undefined`
      for an absent parameter, the elements joined with commas for an array,
      and `[object Object]` for an object; `None` when the conversion throws. */
  function JsString(v: Option<Value>): Option<string>
  {
    match v
    case None => Some(UndefinedText)
    case Some(x) => ValueString(x)
  }

  function ValueString(v: Value): Option<string>
  {
    match v
    case Str(s) => Some(s)
    case List(items) => ItemsString(items)
    case Obj(fields) => if Lookup(fields, ToStringKey).Some? then None else Some(ObjectText)
  }

  function ItemsString(items: seq<Value>): Option<string>
  {
    if |items| == 0 then Some("")
    else
      match ValueString(items[0])
      case None => None
      case Some(head) =>
        if |items| == 1 then Some(head)
        else
          match ItemsString(items[1..])
          case None => None
          case Some(tail) => Some(head + "," + tail)
  }

  /** `String(value)` throws exactly for the values `NoPrimitive` names, and
      an array of strings converts to its strings joined with commas. */
  lemma JsStringSpec(v: Option<Value>)
    ensures v.None? ==> JsString(v) == Some(UndefinedText)
    ensures v.Some? ==> (JsString(v).None? <==> NoPrimitive(v.value))
    ensures forall parts: seq<string> :: v == Some(List(Strs(parts))) ==> JsString(v) == Some(Join(parts, ","))
  {
    if v.Some? {
      ValueStringFails(v.value);
    }
    forall parts: seq<string> | v == Some(List(Strs(parts))) ensures JsString(v) == Some(Join(parts, ",")) {
      StrsJoin(parts);
    }
  }

  /** The query values holding the given strings. */
  function Strs(parts: seq<string>): (r: seq<Value>)
    ensures |r| == |parts|
    ensures forall i :: 0 <= i < |parts| ==> r[i] == Str(parts[i])
  {
    if |parts| == 0 then [] else [Str(parts[0])] + Strs(parts[1..])
  }

  lemma {:induction false} StrsJoin(parts: seq<string>)
    ensures ItemsString(Strs(parts)) == Some(Join(parts, ","))
  {
    if |parts| > 1 {
      StrsJoin(parts[1..]);
      assert Strs(parts)[1..] == Strs(parts[1..]);
    }
  }

  lemma {:induction false} ValueStringFails(v: Value)
    ensures ValueString(v).None? <==> NoPrimitive(v)
  {
    if v.List? {
      ItemsStringFails(v.items);
    }
  }

  lemma {:induction false} ItemsStringFails(items: seq<Value>)
    ensures ItemsString(items).None? <==> exists i :: 0 <= i < |items| && NoPrimitive(items[i])
  {
    if |items| > 0 {
      ValueStringFails(items[0]);
      if |items| > 1 {
        ItemsStringFails(items[1..]);
        if exists i :: 0 <= i < |items| && NoPrimitive(items[i]) {
          var i :| 0 <= i < |items| && NoPrimitive(items[i]);
          if i > 0 {
            assert items[1..][i - 1] == items[i];
          }
        }
        if exists i :: 0 <= i < |items[1..]| && NoPrimitive(items[1..][i]) {
          var i :| 0 <= i < |items[1..]| && NoPrimitive(items[1..][i]);
          assert items[i + 1] == items[1..][i];
        }
      }
    }
  }

  // -------------------------------------------------------- JSON.stringify

  /** The JSON serialisation of a query value, with string contents encoded by
      `enc`. `JSON.stringify` is the instance whose encoder is `Escape`; the
      encoder is a parameter so that a rewrite of the encoded strings can be
      described as a serialisation too. */
  function StringifyWith(v: Value, enc: string -> string): string
  {
    match v
    case Str(s) => "\"" + enc(s) + "\""
    case List(items) => "[" + StringifyItems(items, enc) + "]"
    case Obj(fields) => "{" + StringifyFields(fields, enc) + "}"
  }

  function StringifyItems(items: seq<Value>, enc: string -> string): string
  {
    if |items| == 0 then ""
    else if |items| == 1 then StringifyWith(items[0], enc)
    else StringifyWith(items[0], enc) + "," + StringifyItems(items[1..], enc)
  }

  function StringifyFields(fields: seq<Field>, enc: string -> string): string
  {
    if |fields| == 0 then ""
    else
      var head := "\"" + enc(fields[0].key) + "\":" + StringifyWith(fields[0].value, enc);
      if |fields| == 1 then head else head + "," + StringifyFields(fields[1..], enc)
  }

  /** `JSON.stringify(v)`. */
  function Stringify(v: Value): string
  {
    StringifyWith(v, Escape)
  }

  function HexDigit(n: nat): char
    requires n < 16
  {
    if n < 10 then ('0' as int + n) as char else ('a' as int + n - 10) as char
  }

  /** JSON's escape for one character: the two-character forms, and `\u00XX`
      with lower-case hexadecimal digits for the other control characters. */
  function EscapeChar(c: char): string
  {
    if c == '"' then "\\\""
    else if c == '\\' then "\\\\"
    else if c == '\U{0008}' then "\\b"
    else if c == '\t' then "\\t"
    else if c == '\n' then "\\n"
    else if c == '\U{000C}' then "\\f"
    else if c == '\r' then "\\r"
    else if (c as int) < 0x20 then "\\u00" + [HexDigit((c as int) / 16), HexDigit((c as int) % 16)]
    else [c]
  }

  function Escape(s: string): string
  {
    if |s| == 0 then "" else EscapeChar(s[0]) + Escape(s[1..])
  }

  /** A string JSON writes as it is. */
  predicate PlainString(s: string) {
    forall i :: 0 <= i < |s| ==> s[i] != '"' && s[i] != '\\' && (s[i] as int) >= 0x20
  }

  lemma {:induction false} EscapePlain(s: string)
    requires PlainString(s)
    ensures Escape(s) == s
  {
    if |s| > 0 {
      EscapeCharPlain(s[0]);
      EscapePlain(s[1..]);
      assert s == [s[0]] + s[1..];
    }
  }

  lemma EscapeCharPlain(c: char)
    requires c != '"' && c != '\\' && (c as int) >= 0x20
    ensures EscapeChar(c) == [c]
  {
  }

  /** Every key and string value in `v` is plain. */
  predicate Plain(v: Value) {
    match v
    case Str(s) => PlainString(s)
    case List(items) => forall i :: 0 <= i < |items| ==> Plain(items[i])
    case Obj(fields) => forall i :: 0 <= i < |fields| ==> PlainString(fields[i].key) && Plain(fields[i].value)
  }

  /** The same tree with `f` applied to every key and every string value. */
  function MapStrings(v: Value, f: string -> string): (r: Value)
  {
    match v
    case Str(s) => Str(f(s))
    case List(items) => List(MapItems(items, f))
    case Obj(fields) => Obj(MapFields(fields, f))
  }

  function MapItems(items: seq<Value>, f: string -> string): (r: seq<Value>)
    ensures |r| == |items|
  {
    if |items| == 0 then [] else [MapStrings(items[0], f)] + MapItems(items[1..], f)
  }

  function MapFields(fields: seq<Field>, f: string -> string): (r: seq<Field>)
    ensures |r| == |fields|
  {
    if |fields| == 0 then []
    else [Field(f(fields[0].key), MapStrings(fields[0].value, f))] + MapFields(fields[1..], f)
  }

  /** Serialising a tree whose strings were mapped by `f` is serialising the
      original tree with `f` folded into the encoder. */
  lemma {:induction false} StringifyMapStrings(v: Value, enc: string -> string, f: string -> string, h: string -> string)
    requires forall s :: h(s) == enc(f(s))
    ensures StringifyWith(MapStrings(v, f), enc) == StringifyWith(v, h)
    decreases v
  {
    match v
    case Str(_) =>
    case List(items) => StringifyMapItems(items, enc, f, h);
    case Obj(fields) => StringifyMapFields(fields, enc, f, h);
  }

  lemma {:induction false} StringifyMapItems(items: seq<Value>, enc: string -> string, f: string -> string, h: string -> string)
    requires forall s :: h(s) == enc(f(s))
    ensures StringifyItems(MapItems(items, f), enc) == StringifyItems(items, h)
    decreases items
  {
    if |items| > 0 {
      var m := MapItems(items, f);
      assert m[0] == MapStrings(items[0], f) && m[1..] == MapItems(items[1..], f);
      StringifyMapStrings(items[0], enc, f, h);
      StringifyMapItems(items[1..], enc, f, h);
    }
  }

  lemma {:induction false} StringifyMapFields(fields: seq<Field>, enc: string -> string, f: string -> string, h: string -> string)
    requires forall s :: h(s) == enc(f(s))
    ensures StringifyFields(MapFields(fields, f), enc) == StringifyFields(fields, h)
    decreases fields
  {
    if |fields| > 0 {
      var m := MapFields(fields, f);
      assert m[0] == Field(f(fields[0].key), MapStrings(fields[0].value, f));
      assert m[1..] == MapFields(fields[1..], f);
      StringifyMapStrings(fields[0].value, enc, f, h);
      StringifyMapFields(fields[1..], enc, f, h);
    }
  }

  /** Two encoders that agree on plain strings serialise a plain tree alike. */
  lemma {:induction false} StringifyPlainAlike(v: Value, e1: string -> string, e2: string -> string)
    requires Plain(v)
    requires forall s :: PlainString(s) ==> e1(s) == e2(s)
    ensures StringifyWith(v, e1) == StringifyWith(v, e2)
    decreases v
  {
    match v
    case Str(_) =>
    case List(items) => StringifyPlainAlikeItems(items, e1, e2);
    case Obj(fields) => StringifyPlainAlikeFields(fields, e1, e2);
  }

  lemma {:induction false} StringifyPlainAlikeItems(items: seq<Value>, e1: string -> string, e2: string -> string)
    requires forall i :: 0 <= i < |items| ==> Plain(items[i])
    requires forall s :: PlainString(s) ==> e1(s) == e2(s)
    ensures StringifyItems(items, e1) == StringifyItems(items, e2)
    decreases items
  {
    if |items| > 0 {
      StringifyPlainAlike(items[0], e1, e2);
      StringifyPlainAlikeItems(items[1..], e1, e2);
    }
  }

  lemma {:induction false} StringifyPlainAlikeFields(fields: seq<Field>, e1: string -> string, e2: string -> string)
    requires forall i :: 0 <= i < |fields| ==> PlainString(fields[i].key) && Plain(fields[i].value)
    requires forall s :: PlainString(s) ==> e1(s) == e2(s)
    ensures StringifyFields(fields, e1) == StringifyFields(fields, e2)
    decreases fields
  {
    if |fields| > 0 {
      StringifyPlainAlike(fields[0].value, e1, e2);
      StringifyPlainAlikeFields(fields[1..], e1, e2);
    }
  }
}
